=== FILE: README.md ===
# Employee dashboard: balance reconciliation

This project models the balance-reconciliation logic of the employee dashboard
backend. Field employees record cash they **collect** and cash they **deposit**
at the bank. For each employee the backend reports two things:

- **Outstanding report**: an entry per employee with the sum of its
  collections (`netCollection`), the sum of its deposits (`totalDeposit`),
  their `difference`, and the `lastTransactionDate`.
- **Payment report**: for one employee, a row per calendar day (UTC) with
  that day's `collectionAmount`, its `depositAmount` and a `difference`.

Both reports exist in two separately evolved copies:

- `backend/server/index.js` computes the outstanding entry from two Mongo
  `$group` aggregates. Its payment report walks the days with a carried
  `balance`, and each row's `difference` is that day's own net.
- `backend/routes/data.js` computes the outstanding entry with a fold over the
  employee's transactions. Its payment report partitions the transactions into
  collections and deposits and runs a first-in-first-out allocation of deposits
  against collections, in place. Each row's `difference` is the running
  balance.

The Dafny modules follow those files:

| module | file | content |
|---|---|---|
| `DayKeys` | `day_keys.dfy` | `new Set(...)` deduplication, `.sort()` of day keys, strictly increasing key lists |
| `Transactions` | `transactions.dfy` | records, day keys, kind-filtered sums, latest dates, `find`, `findOne`, the date sort |
| `DailyTotals` | `daily_totals.dfy` | one day's transactions, the reference running balance (everything through a day) |
| `Fifo` | `fifo.dfy` | the allocation of `data.js` over an `array` of collection entries |
| `ServerIndex` | `server_index.dfy` | both handlers of `index.js` |
| `RoutesData` | `routes_data.dfy` | both handlers of `data.js` |
| `CrossCheck` | `cross_check.dfy` | how the two copies relate |

Amounts are integers (minor currency units). A date is an integer count of
milliseconds since 1970-01-01T00:00:00Z. Its day key (`toISOString()` cut to
`YYYY-MM-DD`) is the UTC day number `date / 86_400_000`. Ordering day keys as
numbers is the same as ordering the `YYYY-MM-DD` strings for four-digit years.
The transaction `type` is `Collection`, `Deposit` or `Other`. The schemas only
admit the first two, but both handlers have a branch for anything else, so
`Other` is kept in the model.

The loops of the handlers are methods, each proved against a function. The
properties are stated about those functions:

- both outstanding entries sum what they claim, and their `difference` is their
  net;
- the report days are strictly ascending and distinct, and every transaction's
  day is among them;
- every branch of the carry-over rule in `index.js` equals
  `balance + collectionAmount - depositAmount`, so the carried balance is
  cumulative;
- the allocation pays the collections in the order they are listed (which,
  over the date-ordered fetch, is oldest date first); for non-negative amounts
  it also keeps every `remaining` within `[0, amount]` and pays exactly
  `min(deposits, owed)` (neither schema rules out a negative amount);
- the `data.js` rows never depend on `remaining`;
- while every transaction is a collection or a deposit, the last running
  balance equals the outstanding `difference`;
- while every transaction is a collection or a deposit, both reports show the
  same day and the same day totals in every row, and the `data.js` running
  balance of row k is the balance `index.js` carries out of day k. The rows'
  `difference` fields differ: `index.js` shows the day's own net, `data.js` the
  running balance.

Two behaviours of the code are worth stating up front:

- **`lastTransactionDate`.** `index.js` takes it over collections and deposits
  only, and its ternary can lose the date (see Findings). `data.js` takes it
  over every transaction, whatever its type.
- **Excess deposits.** Neither copy clamps the balance at zero when deposits
  exceed what is owed:
  - `ServerIndex.CarryOver` shows the balance `index.js` carries is always the
    plain net, so it goes negative;
  - the `data.js` running balance is the plain net by definition;
  - the allocation's leftover `amountLeft` is dropped, but `remaining` never
    reaches a row.

## Model

| member | source | states |
|---|---|---|
| DayKeys.Dedup | backend/server/index.js:123 | `[...new Set(keys)]` holds exactly the keys of its input, each once, and is no longer than the input |
| DayKeys.DedupOfSorted | backend/server/index.js:116-123 | deduplicating the keys of a date-sorted list gives a strictly ascending list that ends with the last key |
| DayKeys.InsertKey | backend/routes/data.js:129 | one insertion step of the sort adds exactly the inserted key to the multiset |
| DayKeys.SortKeys | backend/routes/data.js:129 | `.sort()` returns a permutation of its input |
| DayKeys.SortKeysSorted | backend/routes/data.js:129 | the sorted keys ascend, and strictly when the input has no repeats |
| DayKeys.IncreasingUnique | backend/routes/data.js:125-129 | two strictly ascending key lists with the same members are equal, so the day list is determined by the set of days |
| Transactions.DayOf | backend/server/index.js:123 | the day key is the UTC day whose 86 400 000 ms window holds the instant |
| Transactions.DayOfMonotone | backend/routes/data.js:93 | a later date never has an earlier day key, so date order is day order |
| Transactions.Sum | backend/server/index.js:83 | definition of `$sum` and of the `+=` accumulators: the amounts of the transactions of the selected types, added in order; what it adds up to is stated by `SumNone`, `SumAppend`, `SumSortByDate` and `QueryReorders` |
| Transactions.SumNone | backend/server/index.js:90-91 | with no transaction of the kinds summed, the total is 0 |
| Transactions.Latest | backend/server/index.js:83 | the latest date of the selected kinds: None exactly when there is none, otherwise the date of one of them and no earlier than any of them |
| Transactions.LatestByMembers | backend/server/index.js:83 | `$max` depends only on which transactions are present, not on their order |
| Transactions.ForEmployee | backend/server/index.js:82 | a transaction is fetched exactly when it is stored and belongs to that employee |
| Transactions.ForEmployeeCounts | backend/routes/data.js:58 | the fetch holds each of the employee's stored transactions as often as it is stored, and nothing else |
| Transactions.ForEmployeeIgnoresOthers | backend/server/index.js:82 | transactions of other employees never reach an employee's reports |
| Transactions.FindEmployee | backend/routes/data.js:90 | `findOne` yields nothing exactly when no employee has the id, otherwise a stored employee with that id |
| Transactions.FindEmployeeFirst | backend/routes/data.js:90 | the employee found is the first one with the id |
| Transactions.InsertByDate | backend/server/index.js:116 | one insertion step of the date sort adds exactly that transaction |
| Transactions.InsertByDateSorted | backend/server/index.js:116 | inserting into a date-sorted list keeps it date-sorted |
| Transactions.SortByDate | backend/server/index.js:116 | `.sort({ date: 1 })` returns a date-ordered permutation |
| Transactions.Query | backend/routes/data.js:93 | the fetch is date-ordered and is a permutation of the employee's stored transactions |
| Transactions.SumSortByDate | backend/server/index.js:116 | sorting by date changes no sum |
| Transactions.QueryReorders | backend/routes/data.js:58 | the date-ordered fetch has the same sums and latest dates as the unordered one |
| DailyTotals.DayKeysOf | backend/server/index.js:123 | one day key per transaction |
| DailyTotals.DayKeysOfSorted | backend/server/index.js:116-123 | the day keys of a date-sorted list never go down |
| DailyTotals.DayKeysOfMembers | backend/server/index.js:123 | every transaction's day key is listed, and every listed key is some transaction's |
| DailyTotals.OnDay | backend/server/index.js:126-128 | a transaction is kept exactly when it is in the list and falls on that day |
| DailyTotals.OnDayCounts | backend/server/index.js:126-128 | `filter` keeps each transaction of that day as often as it occurs, and nothing else |
| DailyTotals.Through | backend/routes/data.js:142 | reference for a running balance: a transaction is kept exactly when it is in the list and dated on or before the day |
| DailyTotals.ThroughCounts | backend/routes/data.js:142 | the reference keeps each transaction dated on or before the day as often as it occurs, and nothing else |
| DailyTotals.OnDaySumLast | backend/server/index.js:126-136 | one more transaction adds its share to its own day's total and to no other day's |
| DailyTotals.ThroughSumLast | backend/routes/data.js:142 | one more transaction adds its share to every running total from its day on |
| DailyTotals.ThroughGap | backend/routes/data.js:142 | across consecutive report days, the running total grows by exactly the later day's total |
| DailyTotals.ThroughFirst | backend/routes/data.js:142 | on the first report day the running total is that day's own total |
| DailyTotals.ThroughAll | backend/routes/data.js:142 | through the last day, the running total covers every transaction |
| DailyTotals.NetOverDaysThrough | backend/server/index.js:150 | adding up the daily nets over ascending days that cover every transaction gives everything through the k-th day |
| DailyTotals.NetOverAllDays | backend/server/index.js:150 | adding up the daily nets over all the days gives all collections minus all deposits |
| Fifo.Settle | backend/routes/data.js:113-117 | settling one collection keeps its date and amount, moves exactly what it takes from `amountLeft` to `remaining`, and either settles it or uses up the deposit; it changes nothing when either is not positive |
| Fifo.Pay | backend/routes/data.js:111-118 | one deposit's pass keeps the number of collections |
| Fifo.ApplyDeposits | backend/routes/data.js:110-119 | applying the deposits keeps the number of collections |
| Fifo.PayKeepsDates | backend/routes/data.js:112-118 | a pass changes only `remaining`, never raises it, never takes a positive one below zero, and leaves a non-positive one alone |
| Fifo.PayConserves | backend/routes/data.js:111-118 | what a pass takes off the total owed is exactly what it takes off `amountLeft`; a non-positive deposit changes nothing; a positive one never goes negative |
| Fifo.PayPaysDown | backend/routes/data.js:111-118 | a pass lowers what is owed, never below zero, and conserves the deposit |
| Fifo.PayLeft | backend/routes/data.js:111-118 | with nothing negative owed, a deposit keeps exactly what exceeds everything owed |
| Fifo.PayAmount | backend/routes/data.js:111-118 | a deposit pays exactly `min(deposit, owed)` and keeps the rest |
| Fifo.RemainingNonNegative | backend/routes/data.js:102 | with no negative `remaining`, the total owed is non-negative |
| Fifo.PayKeepsOnlyExcess | backend/routes/data.js:112-118 | a deposit keeps something only when every collection is settled |
| Fifo.PayOldestFirst | backend/routes/data.js:112-118 | a collection is paid into only when every collection earlier in `collections` ends the pass settled |
| Fifo.ApplyPaysDown | backend/routes/data.js:109-119 | all deposits together only lower `remaining`, never below zero, and change nothing else |
| Fifo.ApplyWithinBounds | backend/routes/data.js:102 | when every `remaining` starts within `[0, amount]` (which `remaining == amount` meets only for a non-negative amount), it stays there through all the deposits |
| Fifo.ApplyTotalPaid | backend/routes/data.js:109-119 | when no `remaining` starts negative and no deposit is negative, the deposits pay exactly `min(total deposits, total owed)` |
| Fifo.ApplyOldestFirst | backend/routes/data.js:109-119 | after all deposits, a collection has been paid into only if every collection earlier in `collections` is settled |
| Fifo.PayInPlace | backend/routes/data.js:111-118 | the in-place inner loop leaves the array and `amountLeft` as one pass of the deposit |
| Fifo.AllocateFifo | backend/routes/data.js:109-119 | the in-place allocation leaves the array as every deposit applied in order |
| ServerIndex.Aggregate | backend/server/index.js:81-88 | the `$group` yields no document exactly when no transaction has the kind, otherwise one holding the kind's total and its latest date |
| ServerIndex.LastDateAsWritten | backend/server/index.js:94-99 | the ternary as written always returns one of its two inputs |
| ServerIndex.LatestOf | backend/server/index.js:94-99 | the later of two optional dates: null only when both are, never earlier than either |
| ServerIndex.LastDateAsWrittenDiffers | backend/server/index.js:94-99 | the ternary differs from the later date exactly when one side is null and the other is a collection dated at or before 1970-01-01T00:00:00Z or a deposit dated before it |
| ServerIndex.EpochCollectionLosesDate | backend/server/index.js:81-99 | a single collection at the epoch yields a collection group, no deposit group, and a null date as written |
| ServerIndex.LatestOfKinds | backend/server/index.js:92-99 | the later of the per-kind latest dates is the latest date over collections and deposits together |
| ServerIndex.OutstandingSummary | backend/server/index.js:81-108 | an entry holds the employee, the sums of collections and of deposits (0 when none), their difference, and the latest date over both kinds, null exactly when there is none |
| ServerIndex.OutstandingReport | backend/server/index.js:76-111 | one entry per employee, in order, each over that employee's transactions |
| ServerIndex.AdjustedDeposit | backend/server/index.js:138-148 | with no positive balance the deposit is kept whole; otherwise what is left after paying the balance, within `[0, depositAmount]` for a non-negative deposit |
| ServerIndex.PaidDownBalance | backend/server/index.js:140-147 | a non-positive balance is left alone; a positive one stays within `[0, balance]` for a non-negative deposit; what the balance loses is exactly what the deposit no longer counts |
| ServerIndex.CarryOver | backend/server/index.js:138-150 | in every branch the next balance is `balance + collectionAmount - depositAmount` |
| ServerIndex.PayDownCarried | backend/server/index.js:139-148 | the branches that pay a positive carried balance down with the day's deposit return exactly `PaidDownBalance` and `AdjustedDeposit` of the balance carried in |
| ServerIndex.ReportDates | backend/server/index.js:123 | the report days are distinct, include every transaction's day and nothing else; no transactions, no days |
| ServerIndex.ReportDatesAscend | backend/server/index.js:116-123 | over date-ordered transactions the report days ascend strictly |
| ServerIndex.DayRows | backend/server/index.js:125-160 | one row per report day |
| ServerIndex.DayRow | backend/server/index.js:152-159 | definition of one pushed row: the day, the employee, the day's collection and deposit sums and their difference; `DayRowsAt` states it per row |
| ServerIndex.DayRowsAt | backend/server/index.js:126-158 | row i is day i with that day's collections, deposits and per-day difference, whatever balance is carried |
| ServerIndex.CarriedBalances | backend/server/index.js:120-150 | one carried balance per report day |
| ServerIndex.CarriedBalancesAt | backend/server/index.js:138-150 | the balance carried out of day k is the sum of the daily nets of days 0..k |
| ServerIndex.DayTotals | backend/server/index.js:130-136 | the inner loop sums the day's collections and deposits; any other type adds to neither |
| ServerIndex.DailyRows | backend/server/index.js:119-160 | the day loop emits the rows of the report days and carries the balances of the carry-over rule |
| ServerIndex.CarriedBalancesThrough | backend/server/index.js:120-150 | the balance carried out of day k is all collections minus all deposits dated through day k; out of the last day, all of them |
| ServerIndex.CarriedBalancesLast | backend/server/index.js:120-150 | for a non-empty fetch the last carried balance is all collections minus all deposits |
| ServerIndex.PaymentReport | backend/server/index.js:114-163 | the handler returns the rows of the date-ordered fetch, one per report day, and carries its balances |
| RoutesData.Outstanding | backend/routes/data.js:59-77 | an entry holds the employee, the sums of collections and of deposits, their difference, and the latest date over every transaction, null exactly when there is none |
| RoutesData.Summarize | backend/routes/data.js:59-77 | the `forEach` fold computes the entry |
| RoutesData.OutstandingIgnoresOrder | backend/routes/data.js:58 | the entry does not depend on the order of the fetch |
| RoutesData.EntryOf | backend/routes/data.js:57-78 | one employee's entry is over exactly that employee's transactions |
| RoutesData.OutstandingReport | backend/routes/data.js:54-79 | one entry per employee, in order, each over that employee's transactions |
| RoutesData.CollectionsOf | backend/routes/data.js:100-102 | every collection is pushed, with `remaining` starting at `amount` |
| RoutesData.DepositsOf | backend/routes/data.js:103-105 | every transaction that is not a collection is pushed as a deposit |
| RoutesData.PartitionFrom | backend/routes/data.js:100-105 | every pushed entry comes from a transaction of the matching kind |
| RoutesData.PartitionTotal | backend/routes/data.js:98-106 | the two lists' lengths add up to the number of transactions |
| RoutesData.CollectionsOfSorted | backend/routes/data.js:93-106 | over the date-ordered fetch, `collections` is in date order |
| RoutesData.DepositsOfSorted | backend/routes/data.js:93-106 | over the date-ordered fetch, `deposits` is in date order, so the deposits are applied oldest first |
| RoutesData.AllocationOldestByDate | backend/routes/data.js:93-119 | oldest first by date: over the date-ordered fetch, once the deposits have paid into a collection, every collection dated earlier is settled |
| RoutesData.Partition | backend/routes/data.js:98-106 | the partition loop pushes exactly the collection and deposit entries |
| RoutesData.CollectionDays | backend/routes/data.js:126 | one day key per collection |
| RoutesData.DepositDays | backend/routes/data.js:127 | one day key per deposit |
| RoutesData.ReportDays | backend/routes/data.js:125-129 | the sorted date set holds exactly the days of the collections and the deposits |
| RoutesData.ReportDaysAscend | backend/routes/data.js:129 | the report days ascend strictly, so there are no duplicates |
| RoutesData.ReportDaysCover | backend/routes/data.js:125-129 | every transaction's day is a report day, and no transactions give no days |
| RoutesData.CollectedOn | backend/routes/data.js:134-136 | definition of the `filter`/`reduce` over the collection entries of a day; `CollectedOnIsSum` ties it to the day's collections |
| RoutesData.DepositedOn | backend/routes/data.js:138-140 | definition of the `filter`/`reduce` over the deposit entries of a day; `DepositedOnIsSum` ties it to the day's non-collections |
| RoutesData.CollectedOnLast | backend/routes/data.js:134-136 | one more transaction adds its amount to its day's collected total only when it is a collection |
| RoutesData.DepositedOnLast | backend/routes/data.js:138-140 | one more transaction adds its amount to its day's deposited total only when it is not a collection |
| RoutesData.CollectedOnIsSum | backend/routes/data.js:134-136 | a day's collected total is the sum of that day's collections |
| RoutesData.DepositedOnIsSum | backend/routes/data.js:138-140 | a day's deposited total is the sum of everything on that day that is not a collection |
| RoutesData.CollectedOnIgnoresRemaining | backend/routes/data.js:134-136 | the day totals never read `remaining` |
| RoutesData.RunningBalance | backend/routes/data.js:142 | definition of `runningBalance` after walking the listed days; `RunningBalanceIsNet` and `LedgerRow` state what it adds up to |
| RoutesData.LedgerRows | backend/routes/data.js:133-152 | one row per listed day |
| RoutesData.LedgerRowsAt | backend/routes/data.js:133-151 | row k is day k with that day's totals and the running balance through it |
| RoutesData.LedgerIgnoresRemaining | backend/routes/data.js:109-152 | the days, the running balance and the rows are the same whatever the allocation did to `remaining` |
| RoutesData.RunningRows | backend/routes/data.js:132-152 | the `map` threading `runningBalance` emits the report rows |
| RoutesData.Ledger | backend/routes/data.js:125-152 | definition of the report rows: the day totals and running balance over the sorted days of the partition; `LedgerRow` and `LedgerDays` state its properties |
| RoutesData.RunningBalanceIsNet | backend/routes/data.js:142 | the running balance is the sum of daily nets of collections against everything else |
| RoutesData.LedgerRow | backend/routes/data.js:133-151 | row k holds the day's collections, the day's non-collections, and all collections minus all non-collections through that day; days ascend strictly |
| RoutesData.LedgerStep | backend/routes/data.js:142 | each row's running balance is the previous row's plus the day's collections minus its deposits |
| RoutesData.LedgerRowsStep | backend/routes/data.js:142 | over any day list, each running balance is the previous one plus the day's net |
| RoutesData.LedgerDays | backend/routes/data.js:125-152 | every transaction's day has a row; no transactions exactly when no rows; the last running balance is all collections minus all non-collections |
| RoutesData.PaymentReport | backend/routes/data.js:88-159 | an unknown employee gives not-found and no report; otherwise the rows of the first matching employee's date-ordered transactions |
| CrossCheck.NetOverDaysKindsAgree | backend/routes/data.js:103-105 | with only collections and deposits, netting against deposits or against every non-collection is the same day by day |
| CrossCheck.SummariesAgree | backend/routes/data.js:59-76 | with only collections and deposits, the fold-based entry equals the aggregate-based one with the corrected date ternary `LatestOf` |
| CrossCheck.SummariesDisagreeOnOther | backend/routes/data.js:67 | a transaction of another type gets a date from the fold-based entry and none from the aggregate-based one |
| CrossCheck.SummariesDisagreeAtEpoch | backend/server/index.js:94-99 | with the date ternary as written the entries differ even with only collections: a single collection at 1970-01-01T00:00:00.000Z gets no date from `index.js` and its own date from `data.js` |
| CrossCheck.ReportDaysAgree | backend/routes/data.js:125-129 | over the same date-ordered transactions both reports list the same days |
| CrossCheck.RowTotalsAgree | backend/routes/data.js:133-149 | with only collections and deposits, both reports show the same day and day totals in every row |
| CrossCheck.RunningMatchesCarried | backend/routes/data.js:142 | while every transaction is a collection or a deposit, the running balance of row k is the balance `index.js` carries out of day k |
| CrossCheck.RunningGrowsByDailyDifference | backend/routes/data.js:142 | while every transaction is a collection or a deposit, the running balance grows row by row by the per-day `difference` of `index.js` |
| CrossCheck.LastRowMatchesSummary | backend/routes/data.js:142-150 | while every transaction is a collection or a deposit, the last row's running balance is the outstanding `difference` |
| CrossCheck.CarriedMatchesSummary | backend/server/index.js:120-150 | the balance `index.js` carries out of the last day is the outstanding `difference` |

## Left out

- HTTP routing, responses, status codes other than the not-found case, CORS, the auth middleware, JWT and bcrypt are not modelled. They are plumbing and foreign libraries.
- Mongo is not modelled: the connection, schemas and validation, seeding, and the `find`/`aggregate` machinery. A store is a sequence of transactions. A fetch is the employee's transactions in stored order, and `.sort({ date: 1 })` is a stable sort. The order Mongo gives to equal dates is not modelled.
- `data.js` fetches transactions by the employee's document `_id`, and `index.js` fetches them by `employeeId`. Both are modelled as one owner key per transaction.
- The `Promise.all` over employees in `data.js` is modelled as a sequential loop. Each entry depends only on its own employee.
- Amounts are integers. JavaScript floating-point addition and its rounding are not modelled.
- `Date` parsing and `toISOString()` are not modelled. The day key is the UTC day number, and string order of `YYYY-MM-DD` keys is taken as numeric order, which holds for four-digit years.
- ServerIndex.PaymentReport: the per-row `Employee.findOne(...).name` lookup is a parameter. The crash when no employee has the id is not modelled.
- ServerIndex.PaymentReport: the carried balance never reaches the response, so it is a ghost output. What it adds up to is stated in `CarriedBalancesThrough` and `CarriedBalancesLast`, not in the method's own `ensures`.
- ServerIndex.OutstandingReport and RoutesData.OutstandingReport: each entry is stated over the employee's transactions in stored order. `OutstandingIgnoresOrder` and `QueryReorders` show that the date-ordered fetch gives the same entry.
- ServerIndex.OutstandingSummary uses the corrected date ternary `LatestOf`. The ternary as written is `LastDateAsWritten` (see Findings).
- The `try`/`catch` returning status 500 in `data.js` is not modelled. No modelled operation throws.
- The frontend is not modelled. It only displays values.

## Findings

| source | as written | input that shows it | evidently intended | confidence | as-written member | corrected member |
|---|---|---|---|---|---|---|
| backend/server/index.js:94-99 | `!lastCollectionDate && !lastDepositDate ? null : lastCollectionDate > lastDepositDate ? lastCollectionDate : lastDepositDate` compares a `Date` with `null`, which JavaScript compares as 0 | one collection dated 1970-01-01T00:00:00.000Z and no deposit: `lastCollectionDate > null` is `0 > 0`, false, so the entry's `lastTransactionDate` is `null` although the employee has a transaction (likewise a deposit-only employee dated before the epoch) | the later of the two dates, `null` only when both are `null` | not executed | ServerIndex.LastDateAsWritten, ServerIndex.LastDateAsWrittenDiffers, ServerIndex.EpochCollectionLosesDate | ServerIndex.LatestOf |

=== FILE: cross_check.dfy ===
/** How the two copies of the reconciliation logic relate. Over the same
    date-ordered transactions the two payment reports list the same days. While
    every transaction is a collection or a deposit, the rows also show the same day
    totals, the running balance of the route-based report is the balance the
    server's report carries, and the outstanding entries agree once the server's
    date ternary is corrected to `LatestOf` (as written it can lose the date, see
    `SummariesDisagreeAtEpoch`). */
module CrossCheck {
  import opened DayKeys
  import opened Transactions
  import opened DailyTotals
  import SI = ServerIndex
  import RD = RoutesData

  /** The latest date depends only on which transactions the kind set selects. */
  lemma {:induction false} LatestKindsAgree(txs: seq<Transaction>, k1: set<Kind>, k2: set<Kind>)
    requires forall t :: t in txs ==> (t.kind in k1 <==> t.kind in k2)
    ensures Latest(txs, k1) == Latest(txs, k2)
  {
    if txs != [] {
      var p := txs[..|txs| - 1];
      assert txs[|txs| - 1] in txs;
      assert forall t :: t in p ==> t in txs;
      LatestKindsAgree(p, k1, k2);
    }
  }

  /** Day by day, deposits and "everything that is not a collection" agree when
      there is nothing else. */
  lemma {:induction false} NetOverDaysKindsAgree(txs: seq<Transaction>, days: seq<int>)
    requires NoOther(txs)
    ensures NetOverDays(txs, days, NonCollection) == NetOverDays(txs, days, {Deposit})
  {
    if days != [] {
      NetOverDaysKindsAgree(txs, days[..|days| - 1]);
      SumKindsAgree(OnDay(txs, days[|days| - 1]), NonCollection, {Deposit});
    }
  }

  /** With only collections and deposits, the aggregate-based entry with the
      corrected date ternary and the fold-based entry of the outstanding report
      are the same. */
  lemma SummariesAgree(emp: Employee, txs: seq<Transaction>)
    requires NoOther(txs)
    ensures SI.OutstandingSummary(emp, txs) == RD.Outstanding(emp, txs)
  {
    LatestKindsAgree(txs, {Collection, Deposit}, AllKinds);
  }

  /** A transaction of any other kind separates them: the aggregate-based entry
      has no date for it, the fold-based entry does. */
  lemma SummariesDisagreeOnOther()
    ensures var emp := Employee("E001", "Asha");
            var txs := [Transaction("E001", Other, 100, 0)];
            && SI.OutstandingSummary(emp, txs).lastTransactionDate == None
            && RD.Outstanding(emp, txs).lastTransactionDate == Some(0)
  {
    var emp := Employee("E001", "Asha");
    var txs := [Transaction("E001", Other, 100, 0)];
    assert txs[0] in txs;
  }

  /** With the date ternary as written they differ even without other kinds: a
      single collection at 1970-01-01T00:00:00.000Z gets no date from the server's
      entry and its own date from the fold-based entry. */
  lemma SummariesDisagreeAtEpoch()
    ensures var emp := Employee("E001", "Asha");
            var txs := [Transaction("E001", Collection, 500, 0)];
            && SI.Aggregate(txs, Collection) == [SI.Group(500, 0)]
            && SI.Aggregate(txs, Deposit) == []
            && SI.LastDateAsWritten(Some(0), None) == None
            && RD.Outstanding(emp, txs).lastTransactionDate == Some(0)
  {
    var txs := [Transaction("E001", Collection, 500, 0)];
    SI.EpochCollectionLosesDate();
    assert txs[0] in txs;
  }

  /** Over the same date-ordered transactions the two reports list the same days. */
  lemma ReportDaysAgree(txs: seq<Transaction>)
    requires SortedByDate(txs)
    ensures SI.ReportDates(txs) == RD.ReportDays(RD.CollectionsOf(txs), RD.DepositsOf(txs))
  {
    var cs, ds := RD.CollectionsOf(txs), RD.DepositsOf(txs);
    var a, b := SI.ReportDates(txs), RD.ReportDays(cs, ds);
    SI.ReportDatesAscend(txs);
    RD.ReportDaysAscend(cs, ds);
    RD.ReportDaysCover(txs);
    RD.PartitionFrom(txs);
    forall x ensures x in a <==> x in b {
      if x in b {
        if x in RD.CollectionDays(cs) {
          var i :| 0 <= i < |cs| && RD.CollectionDays(cs)[i] == x;
          assert cs[i] in cs;
        } else {
          var i :| 0 <= i < |ds| && RD.DepositDays(ds)[i] == x;
          assert ds[i] in ds;
        }
      }
    }
    IncreasingUnique(a, b);
  }

  /** Row by row over the same date-ordered transactions with only collections and
      deposits, the two reports show the same day with the same collection and
      deposit totals. */
  lemma RowTotalsAgree(emp: Employee, txs: seq<Transaction>, k: int)
    requires SortedByDate(txs) && NoOther(txs)
    requires 0 <= k < |SI.ReportDates(txs)|
    ensures var a := SI.DayRows(emp.employeeId, emp.name, txs, SI.ReportDates(txs));
            var b := RD.Ledger(emp, txs);
            && |a| == |b|
            && a[k].date == b[k].date
            && a[k].collectionAmount == b[k].collectionAmount
            && a[k].depositAmount == b[k].depositAmount
  {
    var days := SI.ReportDates(txs);
    var cs, ds := RD.CollectionsOf(txs), RD.DepositsOf(txs);
    ReportDaysAgree(txs);
    SI.DayRowsAt(emp.employeeId, emp.name, txs, days, k);
    RD.LedgerRowsAt(emp, cs, ds, days, k);
    RD.CollectedOnIsSum(txs, days[k]);
    RD.DepositedOnIsSum(txs, days[k]);
    SumKindsAgree(OnDay(txs, days[k]), NonCollection, {Deposit});
  }

  /** With only collections and deposits, the route-based running balance of row k
      is the balance the server's report carries out of the same day. */
  lemma RunningMatchesCarried(emp: Employee, txs: seq<Transaction>, k: int)
    requires SortedByDate(txs) && NoOther(txs)
    requires 0 <= k < |SI.ReportDates(txs)|
    ensures |RD.Ledger(emp, txs)| == |SI.ReportDates(txs)|
    ensures RD.Ledger(emp, txs)[k].difference == SI.CarriedBalances(txs, SI.ReportDates(txs))[k]
  {
    var days := SI.ReportDates(txs);
    var cs, ds := RD.CollectionsOf(txs), RD.DepositsOf(txs);
    ReportDaysAgree(txs);
    RD.LedgerRowsAt(emp, cs, ds, days, k);
    RD.RunningBalanceIsNet(txs, days[..k + 1]);
    NetOverDaysKindsAgree(txs, days[..k + 1]);
    SI.CarriedBalancesAt(txs, days, k);
  }

  /** With only collections and deposits, the route-based running balance grows row
      by row by the server's per-day `difference`. */
  lemma RunningGrowsByDailyDifference(emp: Employee, txs: seq<Transaction>, k: int)
    requires SortedByDate(txs) && NoOther(txs)
    requires 0 <= k < |SI.ReportDates(txs)|
    ensures var a := SI.DayRows(emp.employeeId, emp.name, txs, SI.ReportDates(txs));
            var b := RD.Ledger(emp, txs);
            && |a| == |b|
            && b[k].difference == (if k == 0 then 0 else b[k - 1].difference) + a[k].difference
  {
    RowTotalsAgree(emp, txs, k);
    SI.DayRowsAt(emp.employeeId, emp.name, txs, SI.ReportDates(txs), k);
    RD.LedgerStep(emp, txs, k);
  }

  /** With only collections and deposits, the last row of the route-based report
      shows the outstanding `difference` of the same transactions. */
  lemma LastRowMatchesSummary(emp: Employee, txs: seq<Transaction>)
    requires NoOther(txs) && txs != []
    ensures RD.Ledger(emp, txs) != []
    ensures RD.Ledger(emp, txs)[|RD.Ledger(emp, txs)| - 1].difference == RD.Outstanding(emp, txs).difference
  {
    RD.LedgerDays(emp, txs);
    SumKindsAgree(txs, NonCollection, {Deposit});
  }

  /** Within the server's copy, the balance carried out of the last day is the
      outstanding `difference` of the same employee. */
  lemma CarriedMatchesSummary(emp: Employee, store: seq<Transaction>)
    requires ForEmployee(store, emp.employeeId) != []
    ensures var txs := Query(store, emp.employeeId);
            var balances := SI.CarriedBalances(txs, SI.ReportDates(txs));
            && balances != []
            && balances[|balances| - 1] == SI.OutstandingSummary(emp, ForEmployee(store, emp.employeeId)).difference
  {
    var id := emp.employeeId;
    var txs, f := Query(store, id), ForEmployee(store, id);
    assert f[0] in f;
    assert txs != [];
    SI.CarriedBalancesLast(txs);
    var balances := SI.CarriedBalances(txs, SI.ReportDates(txs));
    assert balances[|balances| - 1] == Sum(txs, {Collection}) - Sum(txs, {Deposit});
    QueryReorders(store, id, {Collection});
    QueryReorders(store, id, {Deposit});
    assert SI.OutstandingSummary(emp, f).difference == Sum(f, {Collection}) - Sum(f, {Deposit});
  }
}

=== FILE: daily_totals.dfy ===
/** Day-by-day totals shared by both payment reports: the day keys of a
    transaction list, the transactions of one day, and the reference
    definition of a running balance (everything up to and including a day). */
module DailyTotals {
  import opened DayKeys
  import opened Transactions

  /** `transactions.map(t => day key)`: the day key of each transaction, in order. */
  function DayKeysOf(txs: seq<Transaction>): (days: seq<int>)
    ensures |days| == |txs|
  {
    seq(|txs|, i requires 0 <= i < |txs| => DayOf(txs[i].date))
  }

  /** A date-ordered list has non-decreasing day keys. */
  lemma DayKeysOfSorted(txs: seq<Transaction>)
    requires SortedByDate(txs)
    ensures NonDecreasing(DayKeysOf(txs))
  {
    forall i, j | 0 <= i < j < |txs| ensures DayOf(txs[i].date) <= DayOf(txs[j].date) {
      DayOfMonotone(txs[i].date, txs[j].date);
    }
  }

  /** Every transaction's day key is among the keys, and every key is some transaction's. */
  lemma DayKeysOfMembers(txs: seq<Transaction>)
    ensures forall t :: t in txs ==> DayOf(t.date) in DayKeysOf(txs)
    ensures forall d :: d in DayKeysOf(txs) ==> exists t :: t in txs && DayOf(t.date) == d
  {
    var days := DayKeysOf(txs);
    forall t | t in txs ensures DayOf(t.date) in days {
      var i :| 0 <= i < |txs| && txs[i] == t;
      assert days[i] == DayOf(t.date);
    }
    forall d | d in days ensures exists t :: t in txs && DayOf(t.date) == d {
      var i :| 0 <= i < |days| && days[i] == d;
      assert txs[i] in txs;
    }
  }

  /** `transactions.filter(t => day key of t === day)`, order and repeats kept. */
  function OnDay(txs: seq<Transaction>, day: int): (r: seq<Transaction>)
    ensures forall t :: t in r <==> t in txs && DayOf(t.date) == day
  {
    if txs == [] then []
    else
      var p := txs[..|txs| - 1];
      var t := txs[|txs| - 1];
      assert txs == p + [t];
      OnDay(p, day) + (if DayOf(t.date) == day then [t] else [])
  }

  /** The transactions dated on or before `day`: the reference for a running balance. */
  function Through(txs: seq<Transaction>, day: int): (r: seq<Transaction>)
    ensures forall t :: t in r <==> t in txs && DayOf(t.date) <= day
  {
    if txs == [] then []
    else
      var p := txs[..|txs| - 1];
      var t := txs[|txs| - 1];
      assert txs == p + [t];
      Through(p, day) + (if DayOf(t.date) <= day then [t] else [])
  }

  /** A day's transactions are all the transactions of that day, each as often as
      it occurs, and no other. */
  lemma {:induction false} OnDayCounts(txs: seq<Transaction>, day: int)
    ensures forall u :: multiset(OnDay(txs, day))[u] == if DayOf(u.date) == day then multiset(txs)[u] else 0
  {
    if txs != [] {
      var p, t := txs[..|txs| - 1], txs[|txs| - 1];
      assert txs == p + [t];
      OnDayCounts(p, day);
    }
  }

  /** The transactions through a day are all those dated on or before it, each as
      often as it occurs, and no other. */
  lemma {:induction false} ThroughCounts(txs: seq<Transaction>, day: int)
    ensures forall u :: multiset(Through(txs, day))[u] == if DayOf(u.date) <= day then multiset(txs)[u] else 0
  {
    if txs != [] {
      var p, t := txs[..|txs| - 1], txs[|txs| - 1];
      assert txs == p + [t];
      ThroughCounts(p, day);
    }
  }

  /** Appending one transaction adds its share to a day's sum when it falls on that day. */
  lemma OnDaySumLast(txs: seq<Transaction>, day: int, kinds: set<Kind>)
    requires txs != []
    ensures Sum(OnDay(txs, day), kinds)
         == Sum(OnDay(txs[..|txs| - 1], day), kinds)
            + (if DayOf(txs[|txs| - 1].date) == day then Share(txs[|txs| - 1], kinds) else 0)
  {
    var p, t := txs[..|txs| - 1], txs[|txs| - 1];
    assert OnDay(txs, day) == OnDay(p, day) + (if DayOf(t.date) == day then [t] else []);
    if DayOf(t.date) == day {
      SumSnoc(OnDay(p, day), t, kinds);
    } else {
      assert OnDay(txs, day) == OnDay(p, day);
    }
  }

  /** Appending one transaction adds its share to a running sum when it is dated on or before the day. */
  lemma ThroughSumLast(txs: seq<Transaction>, day: int, kinds: set<Kind>)
    requires txs != []
    ensures Sum(Through(txs, day), kinds)
         == Sum(Through(txs[..|txs| - 1], day), kinds)
            + (if DayOf(txs[|txs| - 1].date) <= day then Share(txs[|txs| - 1], kinds) else 0)
  {
    var p, t := txs[..|txs| - 1], txs[|txs| - 1];
    assert Through(txs, day) == Through(p, day) + (if DayOf(t.date) <= day then [t] else []);
    if DayOf(t.date) <= day {
      SumSnoc(Through(p, day), t, kinds);
    } else {
      assert Through(txs, day) == Through(p, day);
    }
  }

  /** Collections minus deposits (of the kinds in `depositKinds`) over the listed days, day by day. */
  function NetOverDays(txs: seq<Transaction>, days: seq<int>, depositKinds: set<Kind>): int {
    if days == [] then 0
    else
      var d := days[|days| - 1];
      NetOverDays(txs, days[..|days| - 1], depositKinds)
        + Sum(OnDay(txs, d), {Collection}) - Sum(OnDay(txs, d), depositKinds)
  }

  /** With no transaction dated strictly between two days, the running sum through
      the later day is the one through the earlier day plus the later day's own. */
  lemma {:induction false} ThroughGap(txs: seq<Transaction>, d1: int, d2: int, kinds: set<Kind>)
    requires d1 < d2
    requires forall t :: t in txs ==> !(d1 < DayOf(t.date) < d2)
    ensures Sum(Through(txs, d2), kinds) == Sum(Through(txs, d1), kinds) + Sum(OnDay(txs, d2), kinds)
  {
    if txs != [] {
      var p := txs[..|txs| - 1];
      assert txs[|txs| - 1] in txs;
      assert forall u :: u in p ==> u in txs;
      ThroughGap(p, d1, d2, kinds);
      ThroughSumLast(txs, d1, kinds);
      ThroughSumLast(txs, d2, kinds);
      OnDaySumLast(txs, d2, kinds);
    }
  }

  /** With nothing dated before `day`, the running sum through it is that day's own sum. */
  lemma {:induction false} ThroughFirst(txs: seq<Transaction>, day: int, kinds: set<Kind>)
    requires forall t :: t in txs ==> day <= DayOf(t.date)
    ensures Sum(Through(txs, day), kinds) == Sum(OnDay(txs, day), kinds)
  {
    if txs != [] {
      var p := txs[..|txs| - 1];
      assert txs[|txs| - 1] in txs;
      assert forall u :: u in p ==> u in txs;
      ThroughFirst(p, day, kinds);
      ThroughSumLast(txs, day, kinds);
      OnDaySumLast(txs, day, kinds);
    }
  }

  /** Through the last day of all transactions means all of them. */
  lemma {:induction false} ThroughAll(txs: seq<Transaction>, day: int)
    requires forall t :: t in txs ==> DayOf(t.date) <= day
    ensures Through(txs, day) == txs
  {
    if txs != [] {
      var p := txs[..|txs| - 1];
      assert txs == p + [txs[|txs| - 1]];
      ThroughAll(p, day);
    }
  }

  /** Walking the days of a strictly increasing day list that covers every
      transaction, the sum after the k-th day is everything dated up to it. */
  lemma {:induction false} NetOverDaysThrough(txs: seq<Transaction>, days: seq<int>, k: int, depositKinds: set<Kind>)
    requires Increasing(days)
    requires forall t :: t in txs ==> DayOf(t.date) in days
    requires 0 <= k < |days|
    ensures NetOverDays(txs, days[..k + 1], depositKinds)
         == Sum(Through(txs, days[k]), {Collection}) - Sum(Through(txs, days[k]), depositKinds)
  {
    var prefix := days[..k + 1];
    assert prefix[..k] == days[..k];
    if k == 0 {
      assert days[..0] == [];
      forall t | t in txs ensures days[0] <= DayOf(t.date) {
        var j :| 0 <= j < |days| && days[j] == DayOf(t.date);
        assert j == 0 || days[0] < days[j];
      }
      ThroughFirst(txs, days[0], {Collection});
      ThroughFirst(txs, days[0], depositKinds);
    } else {
      NetOverDaysThrough(txs, days, k - 1, depositKinds);
      assert days[..k] == days[..(k - 1) + 1];
      forall t | t in txs ensures !(days[k - 1] < DayOf(t.date) < days[k]) {
        var j :| 0 <= j < |days| && days[j] == DayOf(t.date);
        if j <= k - 1 {
          assert j == k - 1 || days[j] < days[k - 1];
        } else {
          assert j == k || days[k] < days[j];
        }
      }
      ThroughGap(txs, days[k - 1], days[k], {Collection});
      ThroughGap(txs, days[k - 1], days[k], depositKinds);
    }
  }

  /** Over a strictly increasing day list covering every transaction, the day-by-day
      sum is the plain total of collections minus deposits. */
  lemma NetOverAllDays(txs: seq<Transaction>, days: seq<int>, depositKinds: set<Kind>)
    requires Increasing(days)
    requires forall t :: t in txs ==> DayOf(t.date) in days
    ensures NetOverDays(txs, days, depositKinds) == Sum(txs, {Collection}) - Sum(txs, depositKinds)
  {
    if days != [] {
      var k := |days| - 1;
      NetOverDaysThrough(txs, days, k, depositKinds);
      assert days[..k + 1] == days;
      forall t | t in txs ensures DayOf(t.date) <= days[k] {
        var j :| 0 <= j < |days| && days[j] == DayOf(t.date);
        assert j == k || days[j] < days[k];
      }
      ThroughAll(txs, days[k]);
    }
  }
}

=== FILE: day_keys.dfy ===
/** Day keys as the two payment reports handle them: deduplication in order of
    first occurrence (what spreading a JavaScript `Set` gives) and ascending
    sort (`Array.prototype.sort` on the day strings). A day key is the number
    of whole UTC days since the Unix epoch. */
module DayKeys {

  predicate Increasing(s: seq<int>) {
    forall i, j :: 0 <= i < j < |s| ==> s[i] < s[j]
  }

  predicate NonDecreasing(s: seq<int>) {
    forall i, j :: 0 <= i < j < |s| ==> s[i] <= s[j]
  }

  predicate Distinct(s: seq<int>) {
    forall i, j :: 0 <= i < j < |s| ==> s[i] != s[j]
  }

  /** `[...new Set(s)]`: the keys of `s` without repeats, in order of first occurrence. */
  function Dedup(s: seq<int>): (r: seq<int>)
    ensures forall x :: x in r <==> x in s
    ensures Distinct(r)
    ensures |r| <= |s|
  {
    if s == [] then []
    else
      assert s == s[..|s| - 1] + [s[|s| - 1]];
      var seen := Dedup(s[..|s| - 1]);
      if s[|s| - 1] in seen then seen else seen + [s[|s| - 1]]
  }

  /** Appending a key above the last one keeps a list strictly increasing. */
  lemma SnocIncreasing(p: seq<int>, x: int)
    requires Increasing(p)
    requires p != [] ==> p[|p| - 1] < x
    ensures Increasing(p + [x])
  {
    var r := p + [x];
    forall i, j | 0 <= i < j < |r| ensures r[i] < r[j] {
      if j == |p| && i < |p| - 1 {
        assert p[i] < p[|p| - 1];
      }
    }
  }

  /** Deduplicating a non-decreasing list gives a strictly increasing one that ends with the same key. */
  lemma {:induction false} DedupOfSorted(s: seq<int>)
    requires NonDecreasing(s)
    ensures Increasing(Dedup(s))
    ensures s != [] ==> Dedup(s) != [] && Dedup(s)[|Dedup(s)| - 1] == s[|s| - 1]
  {
    if s != [] {
      var p := s[..|s| - 1];
      var x := s[|s| - 1];
      assert NonDecreasing(p);
      DedupOfSorted(p);
      var seen := Dedup(p);
      if p != [] {
        assert seen[|seen| - 1] == p[|p| - 1] <= x;
        if x in seen {
          assert x in p;
          var k :| 0 <= k < |p| && p[k] == x;
          assert p[k] <= p[|p| - 1];
        } else {
          SnocIncreasing(seen, x);
        }
      }
    }
  }

  /** One insertion step of the ascending sort. */
  function InsertKey(x: int, s: seq<int>): (r: seq<int>)
    ensures |r| == |s| + 1
    ensures multiset(r) == multiset(s) + multiset{x}
  {
    if s == [] || x <= s[0] then [x] + s
    else
      assert s == [s[0]] + s[1..];
      [s[0]] + InsertKey(x, s[1..])
  }

  /** A key at or below every element of a sorted list may be put in front of it. */
  lemma ConsSorted(h: int, rest: seq<int>, strict: bool)
    requires NonDecreasing(rest) && (strict ==> Increasing(rest))
    requires forall y :: y in rest ==> h <= y && (strict ==> h < y)
    ensures NonDecreasing([h] + rest) && (strict ==> Increasing([h] + rest))
  {
    var r := [h] + rest;
    forall i, j | 0 <= i < j < |r| ensures r[i] <= r[j] && (strict ==> r[i] < r[j]) {
      assert r[j] == rest[j - 1];
      if i == 0 {
        assert rest[j - 1] in rest;
      } else {
        assert r[i] == rest[i - 1];
      }
    }
  }

  /** Every element of an insertion result is the inserted key or an element of the list. */
  lemma InsertKeyMembers(x: int, s: seq<int>, y: int)
    requires y in InsertKey(x, s)
    ensures y == x || y in s
  {
    assert y in multiset(InsertKey(x, s));
  }

  /** Inserting into a sorted list keeps it sorted, and strictly so for a new key. */
  lemma {:induction false} InsertKeySorted(x: int, s: seq<int>)
    requires NonDecreasing(s)
    ensures NonDecreasing(InsertKey(x, s))
    ensures Increasing(s) && x !in s ==> Increasing(InsertKey(x, s))
  {
    var strict := Increasing(s) && x !in s;
    if s == [] || x <= s[0] {
      ConsSorted(x, s, strict);
    } else {
      var tail := s[1..];
      assert NonDecreasing(tail);
      assert strict ==> Increasing(tail) && x !in tail;
      InsertKeySorted(x, tail);
      var rest := InsertKey(x, tail);
      forall y | y in rest ensures s[0] <= y && (strict ==> s[0] < y) {
        InsertKeyMembers(x, tail, y);
        if y != x {
          var k :| 0 <= k < |tail| && tail[k] == y;
          assert s[k + 1] == y;
        }
      }
      ConsSorted(s[0], rest, strict);
    }
  }

  /** `.sort()` on the report's day keys: an ascending permutation of its input. */
  function SortKeys(s: seq<int>): (r: seq<int>)
    ensures |r| == |s| && multiset(r) == multiset(s)
  {
    if s == [] then []
    else
      assert s == s[..|s| - 1] + [s[|s| - 1]];
      InsertKey(s[|s| - 1], SortKeys(s[..|s| - 1]))
  }

  /** The sorted keys ascend, strictly when the input has no repeats. */
  lemma {:induction false} SortKeysSorted(s: seq<int>)
    ensures NonDecreasing(SortKeys(s))
    ensures Distinct(s) ==> Increasing(SortKeys(s))
  {
    if s != [] {
      var p := s[..|s| - 1];
      var x := s[|s| - 1];
      SortKeysSorted(p);
      if Distinct(s) {
        assert Distinct(p);
        forall k | 0 <= k < |p| ensures p[k] != x {
          assert s[k] == p[k];
        }
        assert x !in multiset(SortKeys(p));
      }
      InsertKeySorted(x, SortKeys(p));
    }
  }

  /** A strictly increasing list is determined by the keys it holds. */
  lemma {:induction false} IncreasingUnique(a: seq<int>, b: seq<int>)
    requires Increasing(a) && Increasing(b)
    requires forall x :: x in a <==> x in b
    ensures a == b
  {
    if a != [] { assert a[0] in a; }
    if b != [] { assert b[0] in b; }
    if a != [] && b != [] {
      assert a[0] == b[0] by {
        assert b[0] in b && a[0] in a;
        var i :| 0 <= i < |a| && a[i] == b[0];
        var j :| 0 <= j < |b| && b[j] == a[0];
        assert a[0] <= a[i];
        assert b[0] <= b[j];
      }
      forall x ensures x in a[1..] <==> x in b[1..] {
        assert x in a[1..] <==> x in a && x != a[0] by {
          if x in a[1..] {
            var i :| 0 <= i < |a[1..]| && a[1..][i] == x;
            assert a[i + 1] == x;
          }
          if x in a && x != a[0] {
            var i :| 0 <= i < |a| && a[i] == x;
            assert i != 0;
            assert a[1..][i - 1] == x;
          }
        }
        assert x in b[1..] <==> x in b && x != b[0] by {
          if x in b[1..] {
            var i :| 0 <= i < |b[1..]| && b[1..][i] == x;
            assert b[i + 1] == x;
          }
          if x in b && x != b[0] {
            var i :| 0 <= i < |b| && b[i] == x;
            assert i != 0;
            assert b[1..][i - 1] == x;
          }
        }
      }
      IncreasingUnique(a[1..], b[1..]);
      assert a == [a[0]] + a[1..];
      assert b == [b[0]] + b[1..];
    }
  }
}

=== FILE: fifo.dfy ===
/** The first-in-first-out allocation of the route-based payment report: every
    deposit, in the order `deposits` lists them, pays down the collections that
    are still owed, in the order `collections` lists them. Both lists come from
    the date-ordered fetch, so this is oldest first by date; that step is proved in
    `RoutesData.CollectionsOfSorted`, `RoutesData.DepositsOfSorted` and
    `RoutesData.AllocationOldestByDate`. */
module Fifo {

  /** `{ date, amount, remaining }`: a collection and the part of it no deposit has paid yet. */
  datatype CollectionEntry = CollectionEntry(date: int, amount: int, remaining: int)

  /** `{ date, amount }`: a deposit (or any other non-collection transaction). */
  datatype DepositEntry = DepositEntry(date: int, amount: int)

  function Min(a: int, b: int): int {
    if a <= b then a else b
  }

  function Max(a: int, b: int): int {
    if a >= b then a else b
  }

  /** What is still owed over all the collections. */
  function Remaining(cs: seq<CollectionEntry>): int {
    if cs == [] then 0 else Remaining(cs[..|cs| - 1]) + cs[|cs| - 1].remaining
  }

  /** The sum of the deposit amounts. */
  function DepositTotal(ds: seq<DepositEntry>): int {
    if ds == [] then 0 else DepositTotal(ds[..|ds| - 1]) + ds[|ds| - 1].amount
  }

  /** The allocation only ever lowers what is owed, and never below zero. */
  ghost predicate PaysDown(before: seq<CollectionEntry>, after: seq<CollectionEntry>) {
    && |after| == |before|
    && forall i :: 0 <= i < |before| ==>
         && after[i].date == before[i].date
         && after[i].amount == before[i].amount
         && after[i].remaining <= before[i].remaining
         && (before[i].remaining <= 0 ==> after[i].remaining == before[i].remaining)
         && (before[i].remaining > 0 ==> after[i].remaining >= 0)
  }

  /** The body of the inner loop for one collection: when something is owed and
      something of the deposit is left, the smaller of the two is paid. */
  function Settle(c: CollectionEntry, amountLeft: int): (r: (CollectionEntry, int))
    ensures r.0.date == c.date && r.0.amount == c.amount
    ensures c.remaining - r.0.remaining == amountLeft - r.1
    ensures c.remaining > 0 && amountLeft > 0 ==> r.0.remaining == 0 || r.1 == 0
    ensures c.remaining > 0 && amountLeft > 0 ==> 0 <= r.0.remaining < c.remaining && 0 <= r.1 < amountLeft
    ensures !(c.remaining > 0 && amountLeft > 0) ==> r == (c, amountLeft)
    ensures c.remaining >= 0 && amountLeft >= 0 ==> r.1 == Max(amountLeft - c.remaining, 0)
  {
    if c.remaining > 0 && amountLeft > 0 then
      var payAmount := Min(c.remaining, amountLeft);
      (c.(remaining := c.remaining - payAmount), amountLeft - payAmount)
    else (c, amountLeft)
  }

  /** One deposit's pass over the collections, front to back: the collections
      afterwards and what is left of the deposit. */
  function Pay(cs: seq<CollectionEntry>, amount: int): (r: (seq<CollectionEntry>, int))
    ensures |r.0| == |cs|
  {
    if cs == [] then ([], amount)
    else
      var (paid, amountLeft) := Pay(cs[..|cs| - 1], amount);
      var (c, left) := Settle(cs[|cs| - 1], amountLeft);
      (paid + [c], left)
  }

  /** Every deposit in turn, each starting again from the first collection;
      what a deposit has left after the last collection is dropped. */
  function ApplyDeposits(cs: seq<CollectionEntry>, ds: seq<DepositEntry>): (r: seq<CollectionEntry>)
    ensures |r| == |cs|
  {
    if ds == [] then cs
    else Pay(ApplyDeposits(cs, ds[..|ds| - 1]), ds[|ds| - 1].amount).0
  }

  /** Paying down the earlier collections and then the last one pays down all of them. */
  lemma PaysDownSnoc(before: seq<CollectionEntry>, after: seq<CollectionEntry>, c: CollectionEntry, c': CollectionEntry)
    requires PaysDown(before, after)
    requires PaysDown([c], [c'])
    ensures PaysDown(before + [c], after + [c'])
  {
    assert [c][0] == c && [c'][0] == c';
  }

  /** A deposit changes only `remaining`, and only downwards. */
  lemma {:induction false} PayKeepsDates(cs: seq<CollectionEntry>, amount: int)
    ensures PaysDown(cs, Pay(cs, amount).0)
  {
    if cs != [] {
      var p, last := cs[..|cs| - 1], cs[|cs| - 1];
      PayKeepsDates(p, amount);
      PayLast(cs, amount);
      var (paid, amountLeft) := Pay(p, amount);
      var c := Settle(last, amountLeft).0;
      assert PaysDown([last], [c]) by {
        assert [last][0] == last && [c][0] == c;
      }
      PaysDownSnoc(p, paid, last, c);
      assert cs == p + [last];
    }
  }

  lemma {:induction false} PayConserves(cs: seq<CollectionEntry>, amount: int)
    ensures Remaining(cs) - Remaining(Pay(cs, amount).0) == amount - Pay(cs, amount).1
    ensures amount <= 0 ==> Pay(cs, amount) == (cs, amount)
    ensures amount > 0 ==> Pay(cs, amount).1 >= 0
  {
    if cs != [] {
      var p, last := cs[..|cs| - 1], cs[|cs| - 1];
      PayConserves(p, amount);
      PayLast(cs, amount);
      var (paid, amountLeft) := Pay(p, amount);
      var (c, left) := Settle(last, amountLeft);
      var r := Pay(cs, amount).0;
      assert r == paid + [c];
      assert r[..|cs| - 1] == paid;
      assert Remaining(r) == Remaining(paid) + c.remaining;
      if amount <= 0 {
        assert cs == p + [last];
      }
    }
  }

  /** A deposit only lowers what is owed, never below zero, and touches nothing else;
      whatever it pays comes out of the deposit. */
  lemma PayPaysDown(cs: seq<CollectionEntry>, amount: int)
    ensures PaysDown(cs, Pay(cs, amount).0)
    ensures Remaining(cs) - Remaining(Pay(cs, amount).0) == amount - Pay(cs, amount).1
    ensures amount <= 0 ==> Pay(cs, amount) == (cs, amount)
    ensures amount > 0 ==> Pay(cs, amount).1 >= 0
  {
    PayKeepsDates(cs, amount);
    PayConserves(cs, amount);
  }

  /** With nothing negative owed, a non-negative deposit keeps only what exceeds everything owed. */
  lemma {:induction false} PayLeft(cs: seq<CollectionEntry>, amount: int)
    requires forall i :: 0 <= i < |cs| ==> cs[i].remaining >= 0
    requires amount >= 0
    ensures Pay(cs, amount).1 == Max(amount - Remaining(cs), 0)
  {
    if cs != [] {
      var p, last := cs[..|cs| - 1], cs[|cs| - 1];
      assert forall i :: 0 <= i < |p| ==> p[i].remaining >= 0 by {
        forall i | 0 <= i < |p| ensures p[i].remaining >= 0 {
          assert p[i] == cs[i];
        }
      }
      PayLeft(p, amount);
      PayLast(cs, amount);
      assert last.remaining >= 0;
      assert Remaining(cs) == Remaining(p) + last.remaining;
    }
  }

  /** With nothing negative owed, a non-negative deposit pays all of itself or
      everything owed, whichever is less, and keeps only the excess. */
  lemma PayAmount(cs: seq<CollectionEntry>, amount: int)
    requires forall i :: 0 <= i < |cs| ==> cs[i].remaining >= 0
    requires amount >= 0
    ensures Pay(cs, amount).1 == Max(amount - Remaining(cs), 0)
    ensures Remaining(cs) - Remaining(Pay(cs, amount).0) == Min(amount, Remaining(cs))
  {
    PayLeft(cs, amount);
    PayPaysDown(cs, amount);
  }

  lemma {:induction false} RemainingNonNegative(cs: seq<CollectionEntry>)
    requires forall i :: 0 <= i < |cs| ==> cs[i].remaining >= 0
    ensures Remaining(cs) >= 0
  {
    if cs != [] {
      var p := cs[..|cs| - 1];
      assert forall i :: 0 <= i < |p| ==> p[i] == cs[i];
      RemainingNonNegative(p);
    }
  }

  /** One more collection: the pass over the earlier ones, then the last one settled
      with what the deposit has left. */
  lemma PayLast(cs: seq<CollectionEntry>, amount: int)
    requires cs != []
    ensures var (paid, amountLeft) := Pay(cs[..|cs| - 1], amount);
            Pay(cs, amount) == (paid + [Settle(cs[|cs| - 1], amountLeft).0], Settle(cs[|cs| - 1], amountLeft).1)
  {
  }

  /** A deposit keeps something only when every collection is settled. */
  lemma {:induction false} PayKeepsOnlyExcess(cs: seq<CollectionEntry>, amount: int)
    ensures Pay(cs, amount).1 > 0 ==> forall i :: 0 <= i < |cs| ==> Pay(cs, amount).0[i].remaining <= 0
  {
    if cs != [] {
      var p := cs[..|cs| - 1];
      PayKeepsOnlyExcess(p, amount);
      PayLast(cs, amount);
      var (paid, amountLeft) := Pay(p, amount);
      var (c, left) := Settle(cs[|cs| - 1], amountLeft);
      if left > 0 {
        assert amountLeft > 0;
        forall i | 0 <= i < |cs| ensures Pay(cs, amount).0[i].remaining <= 0 {
          if i < |p| {
            assert Pay(cs, amount).0[i] == paid[i];
          }
        }
      }
    }
  }

  /** Oldest first by position: a collection is paid into only once every earlier one in the list is settled. */
  lemma {:induction false} PayOldestFirst(cs: seq<CollectionEntry>, amount: int)
    ensures forall i, j :: 0 <= i < j < |cs| && Pay(cs, amount).0[j].remaining < cs[j].remaining
              ==> Pay(cs, amount).0[i].remaining <= 0
  {
    if cs != [] {
      var p := cs[..|cs| - 1];
      PayOldestFirst(p, amount);
      PayKeepsOnlyExcess(p, amount);
      PayLast(cs, amount);
      var (paid, amountLeft) := Pay(p, amount);
      var r := Pay(cs, amount).0;
      forall i, j | 0 <= i < j < |cs| && r[j].remaining < cs[j].remaining
        ensures r[i].remaining <= 0
      {
        assert r[i] == paid[i];
        if j < |p| {
          assert r[j] == paid[j] && cs[j] == p[j];
        } else {
          assert amountLeft > 0;
        }
      }
    }
  }

  /** Deposits applied one after another still only lower what is owed, never below zero. */
  lemma {:induction false} ApplyPaysDown(cs: seq<CollectionEntry>, ds: seq<DepositEntry>)
    ensures PaysDown(cs, ApplyDeposits(cs, ds))
  {
    if ds != [] {
      var m := ApplyDeposits(cs, ds[..|ds| - 1]);
      ApplyPaysDown(cs, ds[..|ds| - 1]);
      PayPaysDown(m, ds[|ds| - 1].amount);
    }
  }

  /** Starting from `remaining == amount` (or anything between 0 and the amount),
      every `remaining` stays between 0 and its collection's amount. */
  lemma ApplyWithinBounds(cs: seq<CollectionEntry>, ds: seq<DepositEntry>)
    requires forall i :: 0 <= i < |cs| ==> 0 <= cs[i].remaining <= cs[i].amount
    ensures forall i :: 0 <= i < |cs| ==>
      0 <= ApplyDeposits(cs, ds)[i].remaining <= ApplyDeposits(cs, ds)[i].amount
  {
    ApplyPaysDown(cs, ds);
  }

  /** With nothing negative owed and no negative deposit, the deposits together pay
      off their total or everything owed, whichever is less. */
  lemma {:induction false} ApplyTotalPaid(cs: seq<CollectionEntry>, ds: seq<DepositEntry>)
    requires forall i :: 0 <= i < |cs| ==> cs[i].remaining >= 0
    requires forall k :: 0 <= k < |ds| ==> ds[k].amount >= 0
    ensures Remaining(cs) - Remaining(ApplyDeposits(cs, ds)) == Min(DepositTotal(ds), Remaining(cs))
  {
    RemainingNonNegative(cs);
    if ds != [] {
      var prefix := ds[..|ds| - 1];
      var d := ds[|ds| - 1];
      assert forall k :: 0 <= k < |prefix| ==> prefix[k] == ds[k];
      ApplyTotalPaid(cs, prefix);
      var m := ApplyDeposits(cs, prefix);
      ApplyPaysDown(cs, prefix);
      DepositTotalNonNegative(prefix);
      PayAmount(m, d.amount);
      assert DepositTotal(ds) == DepositTotal(prefix) + d.amount;
      assert ApplyDeposits(cs, ds) == Pay(m, d.amount).0;
    }
  }

  lemma {:induction false} DepositTotalNonNegative(ds: seq<DepositEntry>)
    requires forall k :: 0 <= k < |ds| ==> ds[k].amount >= 0
    ensures DepositTotal(ds) >= 0
  {
    if ds != [] {
      var p := ds[..|ds| - 1];
      assert forall k :: 0 <= k < |p| ==> p[k] == ds[k];
      DepositTotalNonNegative(p);
    }
  }

  /** Oldest first by position across all deposits: once a collection has been paid
      into, every earlier one in the list is settled. */
  lemma {:induction false} ApplyOldestFirst(cs: seq<CollectionEntry>, ds: seq<DepositEntry>)
    ensures forall i, j :: 0 <= i < j < |cs| && ApplyDeposits(cs, ds)[j].remaining < cs[j].remaining
              ==> ApplyDeposits(cs, ds)[i].remaining <= 0
  {
    if ds != [] {
      var prefix := ds[..|ds| - 1];
      var m := ApplyDeposits(cs, prefix);
      var r := ApplyDeposits(cs, ds);
      ApplyOldestFirst(cs, prefix);
      PayOldestFirst(m, ds[|ds| - 1].amount);
      PayPaysDown(m, ds[|ds| - 1].amount);
      forall i, j | 0 <= i < j < |cs| && r[j].remaining < cs[j].remaining
        ensures r[i].remaining <= 0
      {
        if m[j].remaining < cs[j].remaining {
          assert m[i].remaining <= 0;
        }
      }
    }
  }

  /** The inner `for (let c of collections)` for one deposit: each collection's
      `remaining` is updated in place, and what is left of the deposit is returned. */
  method PayInPlace(collections: array<CollectionEntry>, amount: int) returns (amountLeft: int)
    modifies collections
    ensures (collections[..], amountLeft) == Pay(old(collections[..]), amount)
  {
    ghost var before := collections[..];
    amountLeft := amount;
    for k := 0 to collections.Length
      invariant forall i :: k <= i < collections.Length ==> collections[i] == before[i]
      invariant (collections[..k], amountLeft) == Pay(before[..k], amount)
    {
      assert before[..k + 1][..k] == before[..k];
      var c := collections[k];
      assert c == before[k];
      if c.remaining > 0 && amountLeft > 0 {
        var payAmount := Min(c.remaining, amountLeft);
        collections[k] := c.(remaining := c.remaining - payAmount);
        amountLeft := amountLeft - payAmount;
      }
      assert collections[..k + 1] == collections[..k] + [collections[k]];
    }
    assert collections[..] == collections[..collections.Length];
    assert before == before[..collections.Length];
  }

  /** The `deposits.forEach` loop: every deposit in date order runs its pass over
      the collections; what it has left at the end is dropped. */
  method AllocateFifo(collections: array<CollectionEntry>, deposits: seq<DepositEntry>)
    modifies collections
    ensures collections[..] == ApplyDeposits(old(collections[..]), deposits)
  {
    for d := 0 to |deposits|
      invariant collections[..] == ApplyDeposits(old(collections[..]), deposits[..d])
    {
      assert deposits[..d + 1][..d] == deposits[..d];
      var _ := PayInPlace(collections, deposits[d].amount);
    }
    assert deposits[..|deposits|] == deposits;
  }
}

=== FILE: routes_data.dfy ===
/** The reconciliation logic of `backend/routes/data.js`: the outstanding report
    folded over each employee's date-ordered transactions, and the payment report
    that partitions the transactions, runs the first-in-first-out allocation of
    deposits against collections and emits one row per sorted day with a running
    balance. */
module RoutesData {
  import opened DayKeys
  import opened Transactions
  import opened DailyTotals
  import opened Fifo

  /** One entry of the outstanding report: collections and deposits summed, any
      other kind in neither, and the latest date over every transaction. */
  function Outstanding(emp: Employee, txs: seq<Transaction>): (s: Summary)
    ensures s.employeeId == emp.employeeId && s.name == emp.name
    ensures s.netCollection == Sum(txs, {Collection}) && s.totalDeposit == Sum(txs, {Deposit})
    ensures s.difference == s.netCollection - s.totalDeposit
    ensures s.lastTransactionDate.None? <==> txs == []
    ensures s.lastTransactionDate.Some? ==> exists t :: t in txs && t.date == s.lastTransactionDate.value
    ensures s.lastTransactionDate.Some? ==> forall t :: t in txs ==> t.date <= s.lastTransactionDate.value
    ensures txs == [] ==> s.netCollection == 0 && s.totalDeposit == 0 && s.difference == 0
  {
    EveryKindIsCounted(txs);
    var netCollection := Sum(txs, {Collection});
    var totalDeposit := Sum(txs, {Deposit});
    Summary(emp.employeeId, emp.name, netCollection, totalDeposit, Latest(txs, AllKinds), netCollection - totalDeposit)
  }

  lemma EveryKindIsCounted(txs: seq<Transaction>)
    ensures forall t :: t in txs ==> t.kind in AllKinds
  {
    forall t | t in txs ensures t.kind in AllKinds {
      match t.kind
      case Collection =>
      case Deposit =>
      case Other =>
    }
  }

  /** The `transactions.forEach` fold of one employee's outstanding entry. */
  method Summarize(emp: Employee, transactions: seq<Transaction>) returns (s: Summary)
    ensures s == Outstanding(emp, transactions)
  {
    var totalCollection := 0;
    var totalDeposit := 0;
    var lastTransactionDate: Option<int> := None;
    for k := 0 to |transactions|
      invariant totalCollection == Sum(transactions[..k], {Collection})
      invariant totalDeposit == Sum(transactions[..k], {Deposit})
      invariant lastTransactionDate == Latest(transactions[..k], AllKinds)
    {
      var t := transactions[k];
      SumStep(transactions, k, {Collection});
      SumStep(transactions, k, {Deposit});
      LatestStep(transactions, k, AllKinds);
      assert t.kind in AllKinds by {
        match t.kind
        case Collection =>
        case Deposit =>
        case Other =>
      }
      if t.kind == Collection {
        totalCollection := totalCollection + t.amount;
      } else if t.kind == Deposit {
        totalDeposit := totalDeposit + t.amount;
      }
      if lastTransactionDate.None? || t.date > lastTransactionDate.value {
        lastTransactionDate := Some(t.date);
      }
    }
    assert transactions[..|transactions|] == transactions;
    s := Summary(emp.employeeId, emp.name, totalCollection, totalDeposit, lastTransactionDate,
                 totalCollection - totalDeposit);
  }

  /** The entry does not depend on the order the transactions are fetched in. */
  lemma OutstandingIgnoresOrder(emp: Employee, store: seq<Transaction>)
    ensures Outstanding(emp, Query(store, emp.employeeId)) == Outstanding(emp, ForEmployee(store, emp.employeeId))
  {
    QueryReorders(store, emp.employeeId, {Collection});
    QueryReorders(store, emp.employeeId, {Deposit});
    QueryReorders(store, emp.employeeId, AllKinds);
  }

  /** One employee's entry: the date-ordered fetch, then the fold. */
  method EntryOf(emp: Employee, store: seq<Transaction>) returns (s: Summary)
    ensures s == Outstanding(emp, ForEmployee(store, emp.employeeId))
  {
    var transactions := Query(store, emp.employeeId);
    s := Summarize(emp, transactions);
    OutstandingIgnoresOrder(emp, store);
  }

  /** `GET /outstanding-report`: one entry per employee, in employee order, each over
      all of that employee's transactions. */
  method OutstandingReport(employees: seq<Employee>, store: seq<Transaction>) returns (report: seq<Summary>)
    ensures |report| == |employees|
    ensures forall i :: 0 <= i < |employees| ==>
      report[i] == Outstanding(employees[i], ForEmployee(store, employees[i].employeeId))
  {
    report := [];
    for i := 0 to |employees|
      invariant |report| == i
      invariant forall j :: 0 <= j < i ==>
        report[j] == Outstanding(employees[j], ForEmployee(store, employees[j].employeeId))
    {
      var entry := EntryOf(employees[i], store);
      report := report + [entry];
    }
  }

  /** The collection entries the partition pushes, `remaining` starting at `amount`. */
  function CollectionsOf(txs: seq<Transaction>): (cs: seq<CollectionEntry>)
    ensures |cs| <= |txs|
    ensures forall i :: 0 <= i < |cs| ==> cs[i].remaining == cs[i].amount
    ensures forall t :: t in txs && t.kind == Collection ==> CollectionEntry(t.date, t.amount, t.amount) in cs
  {
    if txs == [] then []
    else
      var p := txs[..|txs| - 1];
      var t := txs[|txs| - 1];
      assert txs == p + [t];
      CollectionsOf(p) + (if t.kind == Collection then [CollectionEntry(t.date, t.amount, t.amount)] else [])
  }

  /** The deposit entries the partition pushes: every transaction that is not a collection. */
  function DepositsOf(txs: seq<Transaction>): (ds: seq<DepositEntry>)
    ensures |ds| <= |txs|
    ensures forall t :: t in txs && t.kind != Collection ==> DepositEntry(t.date, t.amount) in ds
  {
    if txs == [] then []
    else
      var p := txs[..|txs| - 1];
      var t := txs[|txs| - 1];
      assert txs == p + [t];
      DepositsOf(p) + (if t.kind != Collection then [DepositEntry(t.date, t.amount)] else [])
  }

  /** Every entry of the partition comes from a transaction of the right kind. */
  lemma {:induction false} PartitionFrom(txs: seq<Transaction>)
    ensures forall c :: c in CollectionsOf(txs) ==>
      exists t :: t in txs && t.kind == Collection && c == CollectionEntry(t.date, t.amount, t.amount)
    ensures forall d :: d in DepositsOf(txs) ==>
      exists t :: t in txs && t.kind != Collection && d == DepositEntry(t.date, t.amount)
  {
    if txs != [] {
      var p := txs[..|txs| - 1];
      var t := txs[|txs| - 1];
      PartitionFrom(p);
      assert t in txs;
      assert forall u :: u in p ==> u in txs;
    }
  }

  /** The partition is total: every transaction lands in exactly one of the two lists. */
  lemma {:induction false} PartitionTotal(txs: seq<Transaction>)
    ensures |CollectionsOf(txs)| + |DepositsOf(txs)| == |txs|
  {
    if txs != [] {
      PartitionTotal(txs[..|txs| - 1]);
    }
  }

  /** Over the date-ordered fetch, the collections are pushed in date order. */
  lemma {:induction false} CollectionsOfSorted(txs: seq<Transaction>)
    requires SortedByDate(txs)
    ensures forall i, j :: 0 <= i < j < |CollectionsOf(txs)| ==>
      CollectionsOf(txs)[i].date <= CollectionsOf(txs)[j].date
  {
    if txs != [] {
      var p, t := txs[..|txs| - 1], txs[|txs| - 1];
      CollectionsOfSorted(p);
      PartitionFrom(p);
      forall c | c in CollectionsOf(p) ensures c.date <= t.date {
        var u :| u in p && u.kind == Collection && c == CollectionEntry(u.date, u.amount, u.amount);
        var m :| 0 <= m < |p| && p[m] == u;
        assert txs[m] == u;
      }
      var cs := CollectionsOf(txs);
      forall i, j | 0 <= i < j < |cs| ensures cs[i].date <= cs[j].date {
        if j == |CollectionsOf(p)| {
          assert cs[i] in CollectionsOf(p);
        }
      }
    }
  }

  /** Over the date-ordered fetch, the deposits are pushed, and so applied, in date order. */
  lemma {:induction false} DepositsOfSorted(txs: seq<Transaction>)
    requires SortedByDate(txs)
    ensures forall i, j :: 0 <= i < j < |DepositsOf(txs)| ==>
      DepositsOf(txs)[i].date <= DepositsOf(txs)[j].date
  {
    if txs != [] {
      var p, t := txs[..|txs| - 1], txs[|txs| - 1];
      DepositsOfSorted(p);
      PartitionFrom(p);
      forall d | d in DepositsOf(p) ensures d.date <= t.date {
        var u :| u in p && u.kind != Collection && d == DepositEntry(u.date, u.amount);
        var m :| 0 <= m < |p| && p[m] == u;
        assert txs[m] == u;
      }
      var ds := DepositsOf(txs);
      forall i, j | 0 <= i < j < |ds| ensures ds[i].date <= ds[j].date {
        if j == |DepositsOf(p)| {
          assert ds[i] in DepositsOf(p);
        }
      }
    }
  }

  /** Oldest first by date: over the date-ordered fetch, once the deposits have paid
      into a collection, every collection dated earlier is settled. */
  lemma AllocationOldestByDate(txs: seq<Transaction>, ds: seq<DepositEntry>)
    requires SortedByDate(txs)
    ensures var cs := CollectionsOf(txs);
            var r := ApplyDeposits(cs, ds);
            forall i, j ::
              0 <= i < |cs| && 0 <= j < |cs| && cs[i].date < cs[j].date && r[j].remaining < cs[j].remaining
              ==> r[i].remaining <= 0
  {
    var cs := CollectionsOf(txs);
    CollectionsOfSorted(txs);
    ApplyOldestFirst(cs, ds);
    ApplyPaysDown(cs, ds);
  }

  /** The `transactions.forEach` that pushes into `collections` and `deposits`. */
  method Partition(transactions: seq<Transaction>) returns (collections: seq<CollectionEntry>, deposits: seq<DepositEntry>)
    ensures collections == CollectionsOf(transactions)
    ensures deposits == DepositsOf(transactions)
  {
    collections := [];
    deposits := [];
    for k := 0 to |transactions|
      invariant collections == CollectionsOf(transactions[..k])
      invariant deposits == DepositsOf(transactions[..k])
    {
      var t := transactions[k];
      assert transactions[..k + 1][..k] == transactions[..k];
      if t.kind == Collection {
        collections := collections + [CollectionEntry(t.date, t.amount, t.amount)];
      } else {
        deposits := deposits + [DepositEntry(t.date, t.amount)];
      }
    }
    assert transactions[..|transactions|] == transactions;
  }

  /** The day keys `collections.forEach` adds to the date set. Kept apart from
      `DepositDays` and `DailyTotals.DayKeysOf` because it maps over the collection
      entries, as the first of the two `forEach` calls does. */
  function CollectionDays(cs: seq<CollectionEntry>): (days: seq<int>)
    ensures |days| == |cs|
  {
    seq(|cs|, i requires 0 <= i < |cs| => DayOf(cs[i].date))
  }

  /** The day keys `deposits.forEach` adds to the date set: the second `forEach`,
      over the deposit entries. */
  function DepositDays(ds: seq<DepositEntry>): (days: seq<int>)
    ensures |days| == |ds|
  {
    seq(|ds|, i requires 0 <= i < |ds| => DayOf(ds[i].date))
  }

  /** `Array.from(datesSet).sort()`: every day of a collection or a deposit, once, ascending. */
  function ReportDays(cs: seq<CollectionEntry>, ds: seq<DepositEntry>): (days: seq<int>)
    ensures forall d :: d in days <==> d in CollectionDays(cs) || d in DepositDays(ds)
  {
    var all := CollectionDays(cs) + DepositDays(ds);
    assert forall d :: d in all <==> d in CollectionDays(cs) || d in DepositDays(ds);
    var keys := Dedup(all);
    var days := SortKeys(keys);
    assert forall d :: d in days <==> d in multiset(keys);
    days
  }

  /** The report days strictly ascend. */
  lemma ReportDaysAscend(cs: seq<CollectionEntry>, ds: seq<DepositEntry>)
    ensures Increasing(ReportDays(cs, ds))
  {
    SortKeysSorted(Dedup(CollectionDays(cs) + DepositDays(ds)));
  }

  /** Every transaction's day is a report day, and an empty list gives no days. */
  lemma {:induction false} ReportDaysCover(txs: seq<Transaction>)
    ensures forall t :: t in txs ==> DayOf(t.date) in ReportDays(CollectionsOf(txs), DepositsOf(txs))
    ensures txs == [] ==> ReportDays(CollectionsOf(txs), DepositsOf(txs)) == []
  {
    var cs, ds := CollectionsOf(txs), DepositsOf(txs);
    forall t | t in txs ensures DayOf(t.date) in ReportDays(cs, ds) {
      if t.kind == Collection {
        var i :| 0 <= i < |cs| && cs[i] == CollectionEntry(t.date, t.amount, t.amount);
        assert CollectionDays(cs)[i] == DayOf(t.date);
      } else {
        var i :| 0 <= i < |ds| && ds[i] == DepositEntry(t.date, t.amount);
        assert DepositDays(ds)[i] == DayOf(t.date);
      }
    }
    var days := ReportDays(cs, ds);
    if days != [] {
      assert days[0] in days;
    }
  }

  /** `collections.filter(on day).reduce(+ amount)`. */
  function CollectedOn(cs: seq<CollectionEntry>, day: int): int {
    if cs == [] then 0
    else CollectedOn(cs[..|cs| - 1], day) + (if DayOf(cs[|cs| - 1].date) == day then cs[|cs| - 1].amount else 0)
  }

  /** `deposits.filter(on day).reduce(+ amount)`. */
  function DepositedOn(ds: seq<DepositEntry>, day: int): int {
    if ds == [] then 0
    else DepositedOn(ds[..|ds| - 1], day) + (if DayOf(ds[|ds| - 1].date) == day then ds[|ds| - 1].amount else 0)
  }

  /** The last transaction adds its amount to its day's collected total when it is a collection. */
  lemma CollectedOnLast(txs: seq<Transaction>, day: int)
    requires txs != []
    ensures CollectedOn(CollectionsOf(txs), day)
         == CollectedOn(CollectionsOf(txs[..|txs| - 1]), day)
            + (if txs[|txs| - 1].kind == Collection && DayOf(txs[|txs| - 1].date) == day then txs[|txs| - 1].amount else 0)
  {
    var t := txs[|txs| - 1];
    var cp := CollectionsOf(txs[..|txs| - 1]);
    if t.kind == Collection {
      var c := CollectionEntry(t.date, t.amount, t.amount);
      assert CollectionsOf(txs) == cp + [c];
      assert (cp + [c])[..|cp|] == cp;
    } else {
      assert CollectionsOf(txs) == cp;
    }
  }

  /** The last transaction adds its amount to its day's deposited total unless it is a collection. */
  lemma DepositedOnLast(txs: seq<Transaction>, day: int)
    requires txs != []
    ensures DepositedOn(DepositsOf(txs), day)
         == DepositedOn(DepositsOf(txs[..|txs| - 1]), day)
            + (if txs[|txs| - 1].kind != Collection && DayOf(txs[|txs| - 1].date) == day then txs[|txs| - 1].amount else 0)
  {
    var t := txs[|txs| - 1];
    var dp := DepositsOf(txs[..|txs| - 1]);
    if t.kind != Collection {
      var d := DepositEntry(t.date, t.amount);
      assert DepositsOf(txs) == dp + [d];
      assert (dp + [d])[..|dp|] == dp;
    } else {
      assert DepositsOf(txs) == dp;
    }
  }

  /** A day's collected total is that day's collections. */
  lemma {:induction false} CollectedOnIsSum(txs: seq<Transaction>, day: int)
    ensures CollectedOn(CollectionsOf(txs), day) == Sum(OnDay(txs, day), {Collection})
  {
    if txs != [] {
      CollectedOnIsSum(txs[..|txs| - 1], day);
      CollectedOnLast(txs, day);
      OnDaySumLast(txs, day, {Collection});
    }
  }

  /** A day's deposited total is everything on that day that is not a collection. */
  lemma {:induction false} DepositedOnIsSum(txs: seq<Transaction>, day: int)
    ensures DepositedOn(DepositsOf(txs), day) == Sum(OnDay(txs, day), NonCollection)
  {
    if txs != [] {
      var t := txs[|txs| - 1];
      DepositedOnIsSum(txs[..|txs| - 1], day);
      DepositedOnLast(txs, day);
      OnDaySumLast(txs, day, NonCollection);
      assert Share(t, NonCollection) == if t.kind != Collection then t.amount else 0 by {
        match t.kind
        case Collection =>
        case Deposit =>
        case Other =>
      }
    }
  }

  /** Two collection lists that differ at most in `remaining`. */
  predicate SameDatesAndAmounts(a: seq<CollectionEntry>, b: seq<CollectionEntry>) {
    |a| == |b| && forall i :: 0 <= i < |a| ==> a[i].date == b[i].date && a[i].amount == b[i].amount
  }

  /** The day totals never look at `remaining`. */
  lemma {:induction false} CollectedOnIgnoresRemaining(a: seq<CollectionEntry>, b: seq<CollectionEntry>, day: int)
    requires SameDatesAndAmounts(a, b)
    ensures CollectedOn(a, day) == CollectedOn(b, day)
  {
    if a != [] {
      CollectedOnIgnoresRemaining(a[..|a| - 1], b[..|b| - 1], day);
    }
  }

  /** The running balance after walking `days`. */
  function RunningBalance(cs: seq<CollectionEntry>, ds: seq<DepositEntry>, days: seq<int>): int {
    if days == [] then 0
    else
      var d := days[|days| - 1];
      RunningBalance(cs, ds, days[..|days| - 1]) + CollectedOn(cs, d) - DepositedOn(ds, d)
  }

  /** The rows `dates.map` returns for the listed days. */
  function LedgerRows(emp: Employee, cs: seq<CollectionEntry>, ds: seq<DepositEntry>, days: seq<int>): (rows: seq<Row>)
    ensures |rows| == |days|
  {
    if days == [] then []
    else
      var d := days[|days| - 1];
      LedgerRows(emp, cs, ds, days[..|days| - 1])
        + [Row(d, emp.name, emp.employeeId, CollectedOn(cs, d), DepositedOn(ds, d), RunningBalance(cs, ds, days))]
  }

  /** The k-th row reports the k-th day's totals and the running balance through it. */
  lemma {:induction false} LedgerRowsAt(emp: Employee, cs: seq<CollectionEntry>, ds: seq<DepositEntry>, days: seq<int>, k: int)
    requires 0 <= k < |days|
    ensures LedgerRows(emp, cs, ds, days)[k]
         == Row(days[k], emp.name, emp.employeeId, CollectedOn(cs, days[k]), DepositedOn(ds, days[k]),
                RunningBalance(cs, ds, days[..k + 1]))
  {
    var p := days[..|days| - 1];
    if k < |days| - 1 {
      LedgerRowsAt(emp, cs, ds, p, k);
      assert p[k] == days[k] && p[..k + 1] == days[..k + 1];
    } else {
      assert days[..k + 1] == days;
    }
  }

  /** The running balance never looks at `remaining` either. */
  lemma {:induction false} LedgerIgnoresRemaining(emp: Employee, a: seq<CollectionEntry>, b: seq<CollectionEntry>,
                                                  ds: seq<DepositEntry>, days: seq<int>)
    requires SameDatesAndAmounts(a, b)
    ensures RunningBalance(a, ds, days) == RunningBalance(b, ds, days)
    ensures LedgerRows(emp, a, ds, days) == LedgerRows(emp, b, ds, days)
    ensures ReportDays(a, ds) == ReportDays(b, ds)
  {
    assert CollectionDays(a) == CollectionDays(b);
    if days != [] {
      LedgerIgnoresRemaining(emp, a, b, ds, days[..|days| - 1]);
      CollectedOnIgnoresRemaining(a, b, days[|days| - 1]);
    }
  }

  /** The `dates.map` callback threading `runningBalance` from day to day. */
  method RunningRows(emp: Employee, collections: seq<CollectionEntry>, deposits: seq<DepositEntry>, dates: seq<int>)
    returns (detailedReport: seq<Row>)
    ensures detailedReport == LedgerRows(emp, collections, deposits, dates)
  {
    detailedReport := [];
    var runningBalance := 0;
    for i := 0 to |dates|
      invariant detailedReport == LedgerRows(emp, collections, deposits, dates[..i])
      invariant runningBalance == RunningBalance(collections, deposits, dates[..i])
    {
      var dateStr := dates[i];
      assert dates[..i + 1][..i] == dates[..i];
      var collectionForDate := CollectedOn(collections, dateStr);
      var depositForDate := DepositedOn(deposits, dateStr);
      runningBalance := runningBalance + collectionForDate - depositForDate;
      detailedReport := detailedReport
        + [Row(dateStr, emp.name, emp.employeeId, collectionForDate, depositForDate, runningBalance)];
    }
    assert dates[..|dates|] == dates;
  }

  /** The payment report of an employee's transactions, as the rows come out. */
  function Ledger(emp: Employee, txs: seq<Transaction>): seq<Row> {
    var cs := CollectionsOf(txs);
    var ds := DepositsOf(txs);
    LedgerRows(emp, cs, ds, ReportDays(cs, ds))
  }

  /** The running balance is the day-by-day net of collections against everything else. */
  lemma {:induction false} RunningBalanceIsNet(txs: seq<Transaction>, days: seq<int>)
    ensures RunningBalance(CollectionsOf(txs), DepositsOf(txs), days) == NetOverDays(txs, days, NonCollection)
  {
    if days != [] {
      RunningBalanceIsNet(txs, days[..|days| - 1]);
      CollectedOnIsSum(txs, days[|days| - 1]);
      DepositedOnIsSum(txs, days[|days| - 1]);
    }
  }

  /** Row k of the report: the day's collections, the day's deposits (every kind that
      is not a collection), and as `difference` all collections minus all deposits up
      to and including that day. Days ascend strictly. */
  lemma LedgerRow(emp: Employee, txs: seq<Transaction>, k: int)
    requires 0 <= k < |Ledger(emp, txs)|
    ensures var row := Ledger(emp, txs)[k];
      && row.employeeId == emp.employeeId && row.employeeName == emp.name
      && row.collectionAmount == Sum(OnDay(txs, row.date), {Collection})
      && row.depositAmount == Sum(OnDay(txs, row.date), NonCollection)
      && row.difference == Sum(Through(txs, row.date), {Collection}) - Sum(Through(txs, row.date), NonCollection)
    ensures forall j :: 0 <= j < k ==> Ledger(emp, txs)[j].date < Ledger(emp, txs)[k].date
  {
    var cs, ds := CollectionsOf(txs), DepositsOf(txs);
    var days := ReportDays(cs, ds);
    LedgerRowsAt(emp, cs, ds, days, k);
    CollectedOnIsSum(txs, days[k]);
    DepositedOnIsSum(txs, days[k]);
    RunningBalanceIsNet(txs, days[..k + 1]);
    ReportDaysAscend(cs, ds);
    ReportDaysCover(txs);
    NetOverDaysThrough(txs, days, k, NonCollection);
    forall j | 0 <= j < k ensures Ledger(emp, txs)[j].date < Ledger(emp, txs)[k].date {
      LedgerRowsAt(emp, cs, ds, days, j);
    }
  }

  /** Each row's `difference` is the previous row's plus the day's collections minus its deposits. */
  lemma LedgerStep(emp: Employee, txs: seq<Transaction>, k: int)
    requires 0 <= k < |Ledger(emp, txs)|
    ensures Ledger(emp, txs)[k].difference
         == (if k == 0 then 0 else Ledger(emp, txs)[k - 1].difference)
            + Ledger(emp, txs)[k].collectionAmount - Ledger(emp, txs)[k].depositAmount
  {
    var cs, ds := CollectionsOf(txs), DepositsOf(txs);
    LedgerRowsStep(emp, cs, ds, ReportDays(cs, ds), k);
  }

  /** Over any day list, each row's running balance is the previous row's plus the day's difference. */
  lemma LedgerRowsStep(emp: Employee, cs: seq<CollectionEntry>, ds: seq<DepositEntry>, days: seq<int>, k: int)
    requires 0 <= k < |days|
    ensures var rows := LedgerRows(emp, cs, ds, days);
            rows[k].difference == (if k == 0 then 0 else rows[k - 1].difference) + rows[k].collectionAmount - rows[k].depositAmount
  {
    LedgerRowsAt(emp, cs, ds, days, k);
    assert days[..k + 1][..k] == days[..k];
    if k > 0 {
      LedgerRowsAt(emp, cs, ds, days, k - 1);
      assert days[..k - 1 + 1] == days[..k];
    } else {
      assert days[..0] == [];
    }
  }

  /** One row per transaction day; no transactions, no rows. The last row's
      `difference` is every collection minus every deposit. */
  lemma LedgerDays(emp: Employee, txs: seq<Transaction>)
    ensures forall t :: t in txs ==> exists k :: 0 <= k < |Ledger(emp, txs)| && Ledger(emp, txs)[k].date == DayOf(t.date)
    ensures txs == [] <==> Ledger(emp, txs) == []
    ensures txs != [] ==> Ledger(emp, txs)[|Ledger(emp, txs)| - 1].difference
                          == Sum(txs, {Collection}) - Sum(txs, NonCollection)
  {
    var cs, ds := CollectionsOf(txs), DepositsOf(txs);
    var days := ReportDays(cs, ds);
    var rows := Ledger(emp, txs);
    ReportDaysCover(txs);
    ReportDaysAscend(cs, ds);
    forall t | t in txs ensures exists k :: 0 <= k < |rows| && rows[k].date == DayOf(t.date) {
      var k :| 0 <= k < |days| && days[k] == DayOf(t.date);
      LedgerRowsAt(emp, cs, ds, days, k);
    }
    if txs != [] {
      assert txs[0] in txs;
      var k := |days| - 1;
      LedgerRowsAt(emp, cs, ds, days, k);
      assert days[..k + 1] == days;
      RunningBalanceIsNet(txs, days);
      NetOverAllDays(txs, days, NonCollection);
    }
  }

  /** `GET /payment-report/:employeeId`: not found for an unknown employee; otherwise
      the partition, the in-place allocation, and one row per sorted day. */
  method PaymentReport(employees: seq<Employee>, store: seq<Transaction>, employeeId: string)
    returns (r: Result<seq<Row>>)
    ensures FindEmployee(employees, employeeId).None? ==> r == Err(NotFound)
    ensures FindEmployee(employees, employeeId).Some? ==>
      r == Ok(Ledger(FindEmployee(employees, employeeId).value, Query(store, employeeId)))
  {
    var found := FindEmployee(employees, employeeId);
    if found.None? {
      return Err(NotFound);
    }
    var emp := found.value;
    var transactions := Query(store, emp.employeeId);
    var collections, deposits := Partition(transactions);
    var entries := new CollectionEntry[|collections|](i requires 0 <= i < |collections| => collections[i]);
    assert entries[..] == collections;
    AllocateFifo(entries, deposits);
    ApplyPaysDown(collections, deposits);
    LedgerIgnoresRemaining(emp, entries[..], collections, deposits, ReportDays(collections, deposits));
    var dates := ReportDays(entries[..], deposits);
    var detailedReport := RunningRows(emp, entries[..], deposits, dates);
    return Ok(detailedReport);
  }
}

=== FILE: server_index.dfy ===
/** The reconciliation logic of `backend/server/index.js`: the outstanding
    report built from two aggregation pipelines per employee, and the payment
    report that groups an employee's transactions by day and walks the days
    with a carried balance while emitting a per-day difference. */
module ServerIndex {
  import opened DayKeys
  import opened Transactions
  import opened DailyTotals

  /** The one document a `$group` stage with `_id: null` yields. */
  datatype Group = Group(total: int, lastDate: int)

  /** `$match { employeeId, type: kind }` then `$group { total: $sum amount, lastDate: $max date }`
      over one employee's transactions: no document when nothing matches. */
  function Aggregate(txs: seq<Transaction>, kind: Kind): (groups: seq<Group>)
    ensures |groups| <= 1
    ensures groups == [] <==> forall t :: t in txs ==> t.kind != kind
    ensures groups != [] ==> groups[0].total == Sum(txs, {kind})
    ensures groups != [] ==> exists t :: t in txs && t.kind == kind && t.date == groups[0].lastDate
    ensures groups != [] ==> forall t :: t in txs && t.kind == kind ==> t.date <= groups[0].lastDate
  {
    match Latest(txs, {kind})
    case None => []
    case Some(last) => [Group(Sum(txs, {kind}), last)]
  }

  /** The number JavaScript's `>` compares for a date or null: its milliseconds, and 0 for null. */
  function JsNumber(d: Option<int>): int {
    if d.Some? then d.value else 0
  }

  /** The `lastTransactionDate` ternary as written: null only when both dates are
      null, otherwise whichever side a numeric `>` picks, null counting as 0. */
  function LastDateAsWritten(lastCollectionDate: Option<int>, lastDepositDate: Option<int>): (r: Option<int>)
    ensures r == lastCollectionDate || r == lastDepositDate
  {
    if lastCollectionDate.None? && lastDepositDate.None? then None
    else if JsNumber(lastCollectionDate) > JsNumber(lastDepositDate) then lastCollectionDate
    else lastDepositDate
  }

  /** The later of two optional dates: what the ternary is meant to compute. */
  function LatestOf(a: Option<int>, b: Option<int>): (r: Option<int>)
    ensures r.None? <==> a.None? && b.None?
    ensures r == a || r == b
    ensures a.Some? ==> r.Some? && a.value <= r.value
    ensures b.Some? ==> r.Some? && b.value <= r.value
  {
    match (a, b)
    case (None, _) => b
    case (_, None) => a
    case (Some(x), Some(y)) => if x > y then a else b
  }

  /** The ternary as written loses the date exactly when one side is null and the
      other is not after the epoch (a collection at or before it, a deposit before it). */
  lemma LastDateAsWrittenDiffers(lastCollectionDate: Option<int>, lastDepositDate: Option<int>)
    ensures LastDateAsWritten(lastCollectionDate, lastDepositDate) != LatestOf(lastCollectionDate, lastDepositDate) <==>
      ((lastCollectionDate.Some? && lastDepositDate.None? && lastCollectionDate.value <= 0) ||
       (lastCollectionDate.None? && lastDepositDate.Some? && lastDepositDate.value < 0))
  {
  }

  /** An employee whose only transaction is a collection at 1970-01-01T00:00:00.000Z. */
  lemma EpochCollectionLosesDate()
    ensures Aggregate([Transaction("E001", Collection, 500, 0)], Collection) == [Group(500, 0)]
    ensures Aggregate([Transaction("E001", Collection, 500, 0)], Deposit) == []
    ensures LastDateAsWritten(Some(0), None) == None
    ensures LatestOf(Some(0), None) == Some(0)
  {
    var txs := [Transaction("E001", Collection, 500, 0)];
    assert txs[..0] == [];
    assert Sum(txs, {Collection}) == 500;
  }

  /** The latest date over two kinds is the later of the per-kind latest dates. */
  lemma LatestOfKinds(txs: seq<Transaction>)
    ensures Latest(txs, {Collection, Deposit}) == LatestOf(Latest(txs, {Collection}), Latest(txs, {Deposit}))
  {
    var both, c, d := Latest(txs, {Collection, Deposit}), Latest(txs, {Collection}), Latest(txs, {Deposit});
    var m := LatestOf(c, d);
    if both.None? {
      assert forall t :: t in txs ==> t.kind !in {Collection} && t.kind !in {Deposit};
      assert c.None? && d.None?;
    } else {
      var t :| t in txs && t.kind in {Collection, Deposit} && t.date == both.value;
      assert t.kind in {Collection} || t.kind in {Deposit};
      assert m.Some? && both.value <= m.value;
      var u :| u in txs && (u.kind == Collection || u.kind == Deposit) && u.date == m.value;
      assert u.kind in {Collection, Deposit};
      assert m.value <= both.value;
    }
  }

  /** One entry of the outstanding report (lines 81-107), with the date ternary corrected. */
  function OutstandingSummary(emp: Employee, txs: seq<Transaction>): (s: Summary)
    ensures s.employeeId == emp.employeeId && s.name == emp.name
    ensures s.netCollection == Sum(txs, {Collection})
    ensures s.totalDeposit == Sum(txs, {Deposit})
    ensures s.difference == s.netCollection - s.totalDeposit
    ensures s.lastTransactionDate == Latest(txs, {Collection, Deposit})
    ensures s.lastTransactionDate.None? <==> forall t :: t in txs ==> t.kind == Other
    ensures txs == [] ==> s == Summary(emp.employeeId, emp.name, 0, 0, None, 0)
  {
    var collections := Aggregate(txs, Collection);
    var deposits := Aggregate(txs, Deposit);
    var netCollection := if |collections| > 0 then collections[0].total else (SumNone(txs, {Collection}); 0);
    var totalDeposit := if |deposits| > 0 then deposits[0].total else (SumNone(txs, {Deposit}); 0);
    var lastCollectionDate := if |collections| > 0 then Some(collections[0].lastDate) else None;
    var lastDepositDate := if |deposits| > 0 then Some(deposits[0].lastDate) else None;
    LatestOfKinds(txs);
    Summary(emp.employeeId, emp.name, netCollection, totalDeposit,
            LatestOf(lastCollectionDate, lastDepositDate), netCollection - totalDeposit)
  }

  /** `GET /api/data/outstanding-report`: one summary per employee, in employee order. */
  method OutstandingReport(employees: seq<Employee>, store: seq<Transaction>) returns (data: seq<Summary>)
    ensures |data| == |employees|
    ensures forall i :: 0 <= i < |employees| ==>
      data[i] == OutstandingSummary(employees[i], ForEmployee(store, employees[i].employeeId))
  {
    data := [];
    for i := 0 to |employees|
      invariant |data| == i
      invariant forall j :: 0 <= j < i ==>
        data[j] == OutstandingSummary(employees[j], ForEmployee(store, employees[j].employeeId))
    {
      var emp := employees[i];
      data := data + [OutstandingSummary(emp, ForEmployee(store, emp.employeeId))];
    }
  }

  /** The deposit still counted for the day once it has paid down a positive carried balance. */
  function AdjustedDeposit(balance: int, depositAmount: int): (adjusted: int)
    ensures balance <= 0 ==> adjusted == depositAmount
    ensures balance > 0 && depositAmount >= 0 ==> 0 <= adjusted <= depositAmount
    ensures balance > 0 ==> adjusted == if depositAmount >= balance then depositAmount - balance else 0
  {
    if balance > 0 then
      if depositAmount >= balance then depositAmount - balance else 0
    else depositAmount
  }

  /** The carried balance once the day's deposit has paid it down: a positive balance
      only goes down, and what it loses is what the deposit no longer counts. */
  function PaidDownBalance(balance: int, depositAmount: int): (paidDown: int)
    ensures balance <= 0 ==> paidDown == balance
    ensures balance > 0 && depositAmount >= 0 ==> 0 <= paidDown <= balance
    ensures balance - paidDown == depositAmount - AdjustedDeposit(balance, depositAmount)
  {
    if balance > 0 then
      if depositAmount >= balance then 0 else balance - depositAmount
    else balance
  }

  /** The balance carried into the next day: whichever branch the carry-over
      rule takes, it is the old balance plus the day's collections minus its deposits. */
  function CarryOver(balance: int, collectionAmount: int, depositAmount: int): (next: int)
    ensures next == balance + collectionAmount - depositAmount
  {
    PaidDownBalance(balance, depositAmount) + collectionAmount - AdjustedDeposit(balance, depositAmount)
  }

  /** `[...new Set(transactions.map(day key))]`: the report days in order of first appearance. */
  function ReportDates(txs: seq<Transaction>): (dates: seq<int>)
    ensures Distinct(dates)
    ensures forall t :: t in txs ==> DayOf(t.date) in dates
    ensures forall d :: d in dates ==> exists t :: t in txs && DayOf(t.date) == d
    ensures txs == [] ==> dates == []
  {
    DayKeysOfMembers(txs);
    Dedup(DayKeysOf(txs))
  }

  /** Over date-ordered transactions the report days strictly ascend. */
  lemma ReportDatesAscend(txs: seq<Transaction>)
    requires SortedByDate(txs)
    ensures Increasing(ReportDates(txs))
  {
    DayKeysOfSorted(txs);
    DedupOfSorted(DayKeysOf(txs));
  }

  /** The row emitted for one day: that day's collections and deposits and their per-day difference. */
  function DayRow(employeeId: string, employeeName: string, txs: seq<Transaction>, day: int): Row {
    var collectionAmount := Sum(OnDay(txs, day), {Collection});
    var depositAmount := Sum(OnDay(txs, day), {Deposit});
    Row(day, employeeName, employeeId, collectionAmount, depositAmount, collectionAmount - depositAmount)
  }

  /** The rows emitted for the listed days, one per day in that order. */
  function DayRows(employeeId: string, employeeName: string, txs: seq<Transaction>, days: seq<int>): (rows: seq<Row>)
    ensures |rows| == |days|
  {
    if days == [] then []
    else DayRows(employeeId, employeeName, txs, days[..|days| - 1])
           + [DayRow(employeeId, employeeName, txs, days[|days| - 1])]
  }

  /** The i-th row reports the i-th day: its collections, its deposits and their
      difference, whatever balance was carried into it. */
  lemma {:induction false} DayRowsAt(employeeId: string, employeeName: string, txs: seq<Transaction>, days: seq<int>, i: int)
    requires 0 <= i < |days|
    ensures DayRows(employeeId, employeeName, txs, days)[i].date == days[i]
    ensures DayRows(employeeId, employeeName, txs, days)[i].employeeId == employeeId
    ensures DayRows(employeeId, employeeName, txs, days)[i].employeeName == employeeName
    ensures DayRows(employeeId, employeeName, txs, days)[i].collectionAmount == Sum(OnDay(txs, days[i]), {Collection})
    ensures DayRows(employeeId, employeeName, txs, days)[i].depositAmount == Sum(OnDay(txs, days[i]), {Deposit})
    ensures DayRows(employeeId, employeeName, txs, days)[i].difference
         == Sum(OnDay(txs, days[i]), {Collection}) - Sum(OnDay(txs, days[i]), {Deposit})
  {
    var p := days[..|days| - 1];
    if i < |days| - 1 {
      DayRowsAt(employeeId, employeeName, txs, p, i);
      assert p[i] == days[i];
    }
  }

  /** The balance carried out of each of the listed days, as the carry-over rule
      leaves it: the cumulative net of the days walked so far. */
  function CarriedBalances(txs: seq<Transaction>, days: seq<int>): (balances: seq<int>)
    ensures |balances| == |days|
  {
    if days == [] then []
    else CarriedBalances(txs, days[..|days| - 1]) + [NetOverDays(txs, days, {Deposit})]
  }

  lemma {:induction false} CarriedBalancesAt(txs: seq<Transaction>, days: seq<int>, k: int)
    requires 0 <= k < |days|
    ensures CarriedBalances(txs, days)[k] == NetOverDays(txs, days[..k + 1], {Deposit})
  {
    var p := days[..|days| - 1];
    if k < |days| - 1 {
      CarriedBalancesAt(txs, p, k);
      assert p[..k + 1] == days[..k + 1];
    } else {
      assert days[..k + 1] == days;
    }
  }

  /** The inner loop over one day's transactions: collections and deposits added
      up separately, any other kind skipped. */
  method DayTotals(dateTransactions: seq<Transaction>) returns (collectionAmount: int, depositAmount: int)
    ensures collectionAmount == Sum(dateTransactions, {Collection})
    ensures depositAmount == Sum(dateTransactions, {Deposit})
  {
    collectionAmount, depositAmount := 0, 0;
    for k := 0 to |dateTransactions|
      invariant collectionAmount == Sum(dateTransactions[..k], {Collection})
      invariant depositAmount == Sum(dateTransactions[..k], {Deposit})
    {
      var t := dateTransactions[k];
      SumStep(dateTransactions, k, {Collection});
      SumStep(dateTransactions, k, {Deposit});
      if t.kind == Collection {
        collectionAmount := collectionAmount + t.amount;
      } else if t.kind == Deposit {
        depositAmount := depositAmount + t.amount;
      }
    }
    assert dateTransactions[..|dateTransactions|] == dateTransactions;
  }

  /** The day's deposit first pays down a positive carried balance; only what is left
      of it counts against the day. */
  method PayDownCarried(balance: int, depositAmount: int) returns (paidDown: int, adjustedDeposit: int)
    ensures adjustedDeposit == AdjustedDeposit(balance, depositAmount)
    ensures paidDown == PaidDownBalance(balance, depositAmount)
  {
    paidDown, adjustedDeposit := balance, depositAmount;
    if paidDown > 0 {
      if adjustedDeposit >= paidDown {
        adjustedDeposit := adjustedDeposit - paidDown;
        paidDown := 0;
      } else {
        paidDown := paidDown - adjustedDeposit;
        adjustedDeposit := 0;
      }
    }
  }

  /** One more report day adds its row, its net and its carried balance. */
  lemma DailyRowsStep(employeeId: string, employeeName: string, txs: seq<Transaction>, days: seq<int>, i: int)
    requires 0 <= i < |days|
    ensures DayRows(employeeId, employeeName, txs, days[..i + 1])
         == DayRows(employeeId, employeeName, txs, days[..i]) + [DayRow(employeeId, employeeName, txs, days[i])]
    ensures NetOverDays(txs, days[..i + 1], {Deposit})
         == NetOverDays(txs, days[..i], {Deposit}) + Sum(OnDay(txs, days[i]), {Collection}) - Sum(OnDay(txs, days[i]), {Deposit})
    ensures CarriedBalances(txs, days[..i + 1])
         == CarriedBalances(txs, days[..i]) + [NetOverDays(txs, days[..i + 1], {Deposit})]
  {
    assert days[..i + 1][..i] == days[..i];
  }

  /** The handler's walk over the fetched transactions: one row per day, with the
      balance carried from day to day. `balances[k]` is the balance carried out of
      the k-th day. */
  method DailyRows(employeeId: string, employeeName: string, transactions: seq<Transaction>, dates: seq<int>)
    returns (result: seq<Row>, ghost balances: seq<int>)
    ensures result == DayRows(employeeId, employeeName, transactions, dates)
    ensures balances == CarriedBalances(transactions, dates)
  {
    result := [];
    balances := [];
    var balance := 0;
    var i := 0;
    while i < |dates|
      invariant 0 <= i <= |dates|
      invariant result == DayRows(employeeId, employeeName, transactions, dates[..i])
      invariant balance == NetOverDays(transactions, dates[..i], {Deposit})
      invariant balances == CarriedBalances(transactions, dates[..i])
    {
      var date := dates[i];
      var dateTransactions := OnDay(transactions, date);
      var collectionAmount, depositAmount := DayTotals(dateTransactions);
      DailyRowsStep(employeeId, employeeName, transactions, dates, i);
      assert DayRow(employeeId, employeeName, transactions, date)
          == Row(date, employeeName, employeeId, collectionAmount, depositAmount, collectionAmount - depositAmount);
      ghost var balance0 := balance;
      var adjustedDeposit;
      balance, adjustedDeposit := PayDownCarried(balance, depositAmount);
      balance := balance + collectionAmount - adjustedDeposit;
      // As `CarryOver` states: whichever branch was taken, the balance grew by the day's net.
      assert balance == balance0 + collectionAmount - depositAmount;
      balances := balances + [balance];

      result := result + [Row(date, employeeName, employeeId, collectionAmount, depositAmount,
                              collectionAmount - depositAmount)];
      i := i + 1;
    }
    assert dates[..i] == dates;
  }

  /** Over date-ordered transactions, the balance carried out of the k-th report day
      is every collection minus every deposit up to and including that day; out of
      the last day, every collection minus every deposit. */
  lemma CarriedBalancesThrough(txs: seq<Transaction>)
    requires SortedByDate(txs)
    ensures forall k :: 0 <= k < |ReportDates(txs)| ==>
      CarriedBalances(txs, ReportDates(txs))[k]
        == Sum(Through(txs, ReportDates(txs)[k]), {Collection}) - Sum(Through(txs, ReportDates(txs)[k]), {Deposit})
    ensures ReportDates(txs) != [] ==>
      CarriedBalances(txs, ReportDates(txs))[|ReportDates(txs)| - 1] == Sum(txs, {Collection}) - Sum(txs, {Deposit})
  {
    var dates := ReportDates(txs);
    ReportDatesAscend(txs);
    forall k | 0 <= k < |dates|
      ensures CarriedBalances(txs, dates)[k]
           == Sum(Through(txs, dates[k]), {Collection}) - Sum(Through(txs, dates[k]), {Deposit})
    {
      CarriedBalancesAt(txs, dates, k);
      NetOverDaysThrough(txs, dates, k, {Deposit});
    }
    if dates != [] {
      var k := |dates| - 1;
      CarriedBalancesAt(txs, dates, k);
      assert dates[..k + 1] == dates;
      NetOverAllDays(txs, dates, {Deposit});
    }
  }

  /** Over a non-empty date-ordered list, the balance carried out of the last day
      is every collection minus every deposit. */
  lemma CarriedBalancesLast(txs: seq<Transaction>)
    requires SortedByDate(txs) && txs != []
    ensures var balances := CarriedBalances(txs, ReportDates(txs));
            && balances != []
            && balances[|balances| - 1] == Sum(txs, {Collection}) - Sum(txs, {Deposit})
  {
    assert txs[0] in txs;
    assert ReportDates(txs) != [];
    CarriedBalancesThrough(txs);
  }

  /** `GET /api/data/payment-report/:employeeId`: the employee's transactions fetched
      in date order, then one row per day. The employee's name, looked up per row by
      the handler, is a parameter. `balances[k]` is the balance carried out of the
      k-th day; `CarriedBalancesThrough` says what it adds up to. */
  method PaymentReport(employeeId: string, employeeName: string, store: seq<Transaction>)
    returns (result: seq<Row>, ghost balances: seq<int>)
    ensures result == DayRows(employeeId, employeeName, Query(store, employeeId), ReportDates(Query(store, employeeId)))
    ensures balances == CarriedBalances(Query(store, employeeId), ReportDates(Query(store, employeeId)))
  {
    var transactions := Query(store, employeeId);
    var dates := ReportDates(transactions);
    result, balances := DailyRows(employeeId, employeeName, transactions, dates);
  }
}

=== FILE: transactions.dfy ===
/** The records both report handlers work on, and the queries and reductions
    they share: the employee filter, the date-ordered fetch, per-kind sums and
    the latest date. Amounts are whole minor currency units; a date is an
    instant in milliseconds since the Unix epoch (UTC). */
module Transactions {

  datatype Option<+T> = None | Some(value: T)

  /** The `type` field of a transaction. The schemas admit only `collection`
      and `deposit`; `Other` stands for any other value, on which the
      handlers branch differently. */
  datatype Kind = Collection | Deposit | Other

  /** A stored transaction; `owner` is the employee it belongs to. */
  datatype Transaction = Transaction(owner: string, kind: Kind, amount: int, date: int)

  datatype Employee = Employee(employeeId: string, name: string)

  /** One entry of an outstanding report. */
  datatype Summary = Summary(
    employeeId: string,
    name: string,
    netCollection: int,
    totalDeposit: int,
    lastTransactionDate: Option<int>,
    difference: int)

  /** One dated row of a payment report. */
  datatype Row = Row(
    date: int,
    employeeName: string,
    employeeId: string,
    collectionAmount: int,
    depositAmount: int,
    difference: int)

  datatype Error = NotFound

  datatype Result<+T> = Ok(value: T) | Err(error: Error)

  const AllKinds: set<Kind> := {Collection, Deposit, Other}

  /** What the FIFO payment report files under `deposits`: everything that is not a collection. */
  const NonCollection: set<Kind> := {Deposit, Other}

  predicate NoOther(txs: seq<Transaction>) {
    forall t :: t in txs ==> t.kind != Other
  }

  /** The UTC calendar day holding an instant: the day that the first ten
      characters of `toISOString()` name. */
  function DayOf(date: int): (day: int)
    ensures 86_400_000 * day <= date < 86_400_000 * (day + 1)
  {
    date / 86_400_000
  }

  lemma DayOfMonotone(a: int, b: int)
    requires a <= b
    ensures DayOf(a) <= DayOf(b)
  {
  }

  /** The amount a transaction adds to a sum over `kinds`. */
  function Share(t: Transaction, kinds: set<Kind>): int {
    if t.kind in kinds then t.amount else 0
  }

  /** Left-to-right sum of the amounts of the transactions whose kind is in `kinds`. */
  function Sum(txs: seq<Transaction>, kinds: set<Kind>): int {
    if txs == [] then 0
    else Sum(txs[..|txs| - 1], kinds) + Share(txs[|txs| - 1], kinds)
  }

  /** A sum over kinds that no transaction has is 0. */
  lemma {:induction false} SumNone(txs: seq<Transaction>, kinds: set<Kind>)
    requires forall t :: t in txs ==> t.kind !in kinds
    ensures Sum(txs, kinds) == 0
  {
    if txs != [] {
      assert txs[|txs| - 1] in txs;
      SumNone(txs[..|txs| - 1], kinds);
    }
  }

  lemma SumSnoc(txs: seq<Transaction>, t: Transaction, kinds: set<Kind>)
    ensures Sum(txs + [t], kinds) == Sum(txs, kinds) + Share(t, kinds)
  {
    assert (txs + [t])[..|txs|] == txs;
  }

  /** One more transaction of a list adds its share. */
  lemma SumStep(txs: seq<Transaction>, k: int, kinds: set<Kind>)
    requires 0 <= k < |txs|
    ensures Sum(txs[..k + 1], kinds) == Sum(txs[..k], kinds) + Share(txs[k], kinds)
  {
    assert txs[..k + 1][..k] == txs[..k];
  }

  /** A sum over a concatenation is the sum of the two sums. */
  lemma {:induction false} SumAppend(a: seq<Transaction>, b: seq<Transaction>, kinds: set<Kind>)
    ensures Sum(a + b, kinds) == Sum(a, kinds) + Sum(b, kinds)
  {
    if b != [] {
      var b' := b[..|b| - 1];
      var t := b[|b| - 1];
      assert b == b' + [t];
      assert a + b == (a + b') + [t];
      SumAppend(a, b', kinds);
      SumSnoc(a + b', t, kinds);
      SumSnoc(b', t, kinds);
    } else {
      assert a + b == a;
    }
  }

  /** Sums over two kind sets agree when no transaction tells the sets apart. */
  lemma {:induction false} SumKindsAgree(txs: seq<Transaction>, k1: set<Kind>, k2: set<Kind>)
    requires forall t :: t in txs ==> (t.kind in k1 <==> t.kind in k2)
    ensures Sum(txs, k1) == Sum(txs, k2)
  {
    if txs != [] {
      assert txs[|txs| - 1] in txs;
      SumKindsAgree(txs[..|txs| - 1], k1, k2);
    }
  }

  /** The latest date among the transactions whose kind is in `kinds`, None when there is none. */
  function Latest(txs: seq<Transaction>, kinds: set<Kind>): (last: Option<int>)
    ensures last.None? <==> forall t :: t in txs ==> t.kind !in kinds
    ensures last.Some? ==> exists t :: t in txs && t.kind in kinds && t.date == last.value
    ensures last.Some? ==> forall t :: t in txs && t.kind in kinds ==> t.date <= last.value
  {
    if txs == [] then None
    else
      var p := txs[..|txs| - 1];
      var t := txs[|txs| - 1];
      assert txs == p + [t];
      var before := Latest(p, kinds);
      if t.kind !in kinds then before
      else if before.None? || t.date > before.value then Some(t.date)
      else before
  }

  /** One more transaction of a list: it becomes the latest date when its kind counts and it is later. */
  lemma LatestStep(txs: seq<Transaction>, k: int, kinds: set<Kind>)
    requires 0 <= k < |txs|
    ensures Latest(txs[..k + 1], kinds)
         == if txs[k].kind !in kinds then Latest(txs[..k], kinds)
            else if Latest(txs[..k], kinds).None? || txs[k].date > Latest(txs[..k], kinds).value then Some(txs[k].date)
            else Latest(txs[..k], kinds)
  {
    assert txs[..k + 1][..k] == txs[..k];
  }

  /** The latest date depends only on which transactions are present. */
  lemma LatestByMembers(a: seq<Transaction>, b: seq<Transaction>, kinds: set<Kind>)
    requires forall t :: t in a <==> t in b
    ensures Latest(a, kinds) == Latest(b, kinds)
  {
    var la, lb := Latest(a, kinds), Latest(b, kinds);
    if la.Some? {
      var ta :| ta in a && ta.kind in kinds && ta.date == la.value;
      assert ta in b;
      assert lb.Some? && la.value <= lb.value;
      var tb :| tb in b && tb.kind in kinds && tb.date == lb.value;
      assert tb in a;
      assert lb.value <= la.value;
    } else {
      assert forall t :: t in b ==> t.kind !in kinds;
    }
  }

  /** `find({ employeeId })`: the transactions of one employee, in stored order,
      each as often as it is stored. */
  function ForEmployee(store: seq<Transaction>, id: string): (txs: seq<Transaction>)
    ensures forall t :: t in txs <==> t in store && t.owner == id
    ensures |txs| <= |store|
  {
    if store == [] then []
    else
      var p := store[..|store| - 1];
      var t := store[|store| - 1];
      assert store == p + [t];
      ForEmployee(p, id) + (if t.owner == id then [t] else [])
  }

  /** The fetch keeps every stored transaction of the employee as often as it is
      stored, and no other. */
  lemma {:induction false} ForEmployeeCounts(store: seq<Transaction>, id: string)
    ensures forall u :: multiset(ForEmployee(store, id))[u] == if u.owner == id then multiset(store)[u] else 0
  {
    if store != [] {
      var p, t := store[..|store| - 1], store[|store| - 1];
      assert store == p + [t];
      ForEmployeeCounts(p, id);
    }
  }

  lemma {:induction false} ForEmployeeAppend(a: seq<Transaction>, b: seq<Transaction>, id: string)
    ensures ForEmployee(a + b, id) == ForEmployee(a, id) + ForEmployee(b, id)
  {
    if b != [] {
      var b' := b[..|b| - 1];
      var t := b[|b| - 1];
      assert b == b' + [t];
      assert a + b == (a + b') + [t];
      assert (a + b)[..|a + b| - 1] == a + b';
      ForEmployeeAppend(a, b', id);
    } else {
      assert a + b == a;
    }
  }

  /** Transactions of other employees never reach an employee's reports. */
  lemma {:induction false} ForEmployeeIgnoresOthers(store: seq<Transaction>, others: seq<Transaction>, id: string)
    requires forall t :: t in others ==> t.owner != id
    ensures ForEmployee(store + others, id) == ForEmployee(store, id)
  {
    ForEmployeeAppend(store, others, id);
    ForEmployeeNone(others, id);
    assert store + [] == store;
  }

  lemma {:induction false} ForEmployeeNone(others: seq<Transaction>, id: string)
    requires forall t :: t in others ==> t.owner != id
    ensures ForEmployee(others, id) == []
  {
    if others != [] {
      var p := others[..|others| - 1];
      assert others == p + [others[|others| - 1]];
      ForEmployeeNone(p, id);
    }
  }

  /** `Employee.findOne({ employeeId })`: the first employee with that id. */
  function FindEmployee(employees: seq<Employee>, id: string): (found: Option<Employee>)
    ensures found.None? <==> forall e :: e in employees ==> e.employeeId != id
    ensures found.Some? ==> found.value in employees && found.value.employeeId == id
  {
    if employees == [] then None
    else if employees[0].employeeId == id then Some(employees[0])
    else
      assert employees == [employees[0]] + employees[1..];
      FindEmployee(employees[1..], id)
  }

  /** The employee found is the first one with that id. */
  lemma {:induction false} FindEmployeeFirst(employees: seq<Employee>, id: string)
    requires FindEmployee(employees, id).Some?
    ensures exists i :: 0 <= i < |employees| && employees[i] == FindEmployee(employees, id).value
                        && forall j :: 0 <= j < i ==> employees[j].employeeId != id
  {
    if employees[0].employeeId != id {
      var rest := employees[1..];
      FindEmployeeFirst(rest, id);
      var i :| 0 <= i < |rest| && rest[i] == FindEmployee(rest, id).value
               && forall j :: 0 <= j < i ==> rest[j].employeeId != id;
      assert employees[i + 1] == rest[i];
      assert forall j :: 0 <= j < i + 1 ==> employees[j].employeeId != id by {
        forall j | 0 <= j < i + 1 ensures employees[j].employeeId != id {
          if j > 0 {
            assert employees[j] == rest[j - 1];
          }
        }
      }
    }
  }

  ghost predicate SortedByDate(txs: seq<Transaction>) {
    forall i, j :: 0 <= i < j < |txs| ==> txs[i].date <= txs[j].date
  }

  /** One insertion step of a stable sort by date: `t` goes after every element not later than it. */
  function InsertByDate(t: Transaction, s: seq<Transaction>): (r: seq<Transaction>)
    ensures |r| == |s| + 1
    ensures multiset(r) == multiset(s) + multiset{t}
  {
    if s == [] || t.date < s[0].date then [t] + s
    else
      assert s == [s[0]] + s[1..];
      [s[0]] + InsertByDate(t, s[1..])
  }

  lemma ConsSortedByDate(h: Transaction, rest: seq<Transaction>)
    requires SortedByDate(rest)
    requires forall u :: u in rest ==> h.date <= u.date
    ensures SortedByDate([h] + rest)
  {
    var r := [h] + rest;
    forall i, j | 0 <= i < j < |r| ensures r[i].date <= r[j].date {
      assert r[j] == rest[j - 1];
      if i == 0 {
        assert rest[j - 1] in rest;
      } else {
        assert r[i] == rest[i - 1];
      }
    }
  }

  lemma {:induction false} InsertByDateSorted(t: Transaction, s: seq<Transaction>)
    requires SortedByDate(s)
    ensures SortedByDate(InsertByDate(t, s))
  {
    if s == [] || t.date < s[0].date {
      forall u | u in s ensures t.date <= u.date {
        var k :| 0 <= k < |s| && s[k] == u;
        assert s[0].date <= s[k].date;
      }
      ConsSortedByDate(t, s);
    } else {
      var tail := s[1..];
      assert SortedByDate(tail);
      InsertByDateSorted(t, tail);
      var rest := InsertByDate(t, tail);
      forall u | u in rest ensures s[0].date <= u.date {
        assert u in multiset(rest);
        if u != t {
          var k :| 0 <= k < |tail| && tail[k] == u;
          assert s[k + 1] == u;
        }
      }
      ConsSortedByDate(s[0], rest);
    }
  }

  /** `.sort({ date: 1 })`: a date-ordered permutation of `s`. */
  function SortByDate(s: seq<Transaction>): (r: seq<Transaction>)
    ensures |r| == |s| && multiset(r) == multiset(s)
    ensures SortedByDate(r)
  {
    if s == [] then []
    else
      assert s == s[..|s| - 1] + [s[|s| - 1]];
      var sorted := SortByDate(s[..|s| - 1]);
      InsertByDateSorted(s[|s| - 1], sorted);
      InsertByDate(s[|s| - 1], sorted)
  }

  /** `Transaction.find({ employee }).sort({ date: 1 })`. */
  function Query(store: seq<Transaction>, id: string): (txs: seq<Transaction>)
    ensures SortedByDate(txs)
    ensures multiset(txs) == multiset(ForEmployee(store, id))
    ensures forall t :: t in txs <==> t in store && t.owner == id
  {
    var txs := SortByDate(ForEmployee(store, id));
    assert forall t :: t in txs <==> t in multiset(txs);
    txs
  }

  lemma {:induction false} SumInsertByDate(t: Transaction, s: seq<Transaction>, kinds: set<Kind>)
    ensures Sum(InsertByDate(t, s), kinds) == Sum(s, kinds) + Share(t, kinds)
  {
    if s == [] || t.date < s[0].date {
      SumAppend([t], s, kinds);
      SumSnoc([], t, kinds);
    } else {
      SumInsertByDate(t, s[1..], kinds);
      SumAppend([s[0]], InsertByDate(t, s[1..]), kinds);
      SumAppend([s[0]], s[1..], kinds);
      assert s == [s[0]] + s[1..];
      SumSnoc([], s[0], kinds);
    }
  }

  /** Sorting by date changes no sum. */
  lemma {:induction false} SumSortByDate(s: seq<Transaction>, kinds: set<Kind>)
    ensures Sum(SortByDate(s), kinds) == Sum(s, kinds)
  {
    if s != [] {
      var p, t := s[..|s| - 1], s[|s| - 1];
      assert s == p + [t];
      var sorted := SortByDate(p);
      assert SortByDate(s) == InsertByDate(t, sorted);
      SumSortByDate(p, kinds);
      SumInsertByDate(t, sorted, kinds);
      SumSnoc(p, t, kinds);
    }
  }

  /** The date-ordered fetch has the same sums and latest date as the unordered one. */
  lemma QueryReorders(store: seq<Transaction>, id: string, kinds: set<Kind>)
    ensures Sum(Query(store, id), kinds) == Sum(ForEmployee(store, id), kinds)
    ensures Latest(Query(store, id), kinds) == Latest(ForEmployee(store, id), kinds)
  {
    SumSortByDate(ForEmployee(store, id), kinds);
    LatestByMembers(Query(store, id), ForEmployee(store, id), kinds);
  }
}
